=== FILE: README.md ===
# A verified model of the capstone-react shop

The shop has a small backend and a React frontend.

- **Backend.** Express and Sequelize. Customers place orders against the product table. A product manager dispatches orders, which deducts stock, or cancels them.
- **Frontend.** Customers browse, search and sort the catalogue, keep a cart in local storage and check it out. The product manager edits stock on the main page and watches a dashboard of aggregates.

This project models the domain logic of both halves as pure Dafny functions over immutable data, and proves what the code promises about them.

| file | module | models |
|---|---|---|
| `shop.dfy` | `Shop` | The tables (`products`, `orders`, `order_items`), the order status, the authenticated principal and the error replies. It also holds the store invariant `Valid` and the stock invariant `StockNonNegative`. |
| `orders.dfy` | `Orders` | `POST /orders`, `PATCH /orders/:id/dispatch`, `PATCH /orders/:id/cancel`, `GET /orders` and `GET /orders/all`, each as a transition `Store -> Step(store, reply)`. |
| `lifecycle.dfy` | `Lifecycle` | Sequences of requests. It covers the invariants every request keeps, the status machine, how a placed order looks to the listings, and worked scenarios of the stock rules. |
| `cart.dfy` | `Cart` | The cart of `Cart.jsx` and `addToCart` of `CustomerProducts.jsx`: the updates, the total, and the checkout request. |
| `catalogue.dfy` | `Catalogue` | The search, category filter and stable sort of `CustomerProducts.jsx` and `MainPage.jsx`, the low-stock flag, and the main page's `restock` and `deleteItem` list edits. |
| `dashboard.dfy` | `Dashboard` | `categoryMap`, `topProducts`, `stockProducts` and the KPI figures of `DashBoard.jsx`. |
| `categories.dfy` | `Categories` | The category list of `App.jsx`, `[...new Set(products.map(p => p.category))]`. |
| `text.dfy` | `Text` | `toLowerCase` and `includes` as the search uses them. |
| `seqs.dfy` | `Seqs` | Generic sequence operations with their library meaning: `filter`, first-occurrence de-duplication through a `Set`, a stable insertion sort on an integer key, and `slice(0, n)`. |

## Conventions

- **Money.** Prices and totals are integer cents, because every money column is `DECIMAL(10,2)`.
- **Order ids.** Ids come from a counter in the store (`nextOrderId`), which stands for the auto-increment key.
- **Listing order.** Ids are handed out in creation order, so the listings' `created_at DESC` order is modelled as descending id. Orders with equal `created_at` are put in descending id order, which the queries do not fix (see "## Left out").
- **Authorization.** `authorize(role)` is an `AccessDenied` error path of each endpoint, not a precondition.
- **Side effects of failed requests.** A request's result carries the store afterwards even when it fails, because a failed dispatch can already have written stock.

## Behaviour kept as the code has it

Three behaviours of the handlers are easy to miss. The model has each of them as the code does.

- **No input validation at placement.** The placement handler checks only that each product exists and has enough stock (`backend/server.js:155-161`). An empty item list creates a pending order with total 0, and a zero or negative quantity passes the stock test. `Orders.PlaceOrder` accepts such requests.
- **Dispatch is not atomic.** The dispatch handler deducts item by item, writing each product as it goes, with no transaction (`backend/server.js:298-310`). A failure at item k keeps the deductions of items 0..k-1 and leaves the order pending. `Orders.Deduct` and `Orders.DispatchOrder` keep them, and `Lifecycle.PartialDispatch` shows a case.
- **A product deleted before dispatch.** If a product could be deleted between placement and dispatch, the handler would dereference a null product and answer 500. The model keeps this path as `ServerError`, returned after the earlier deductions. It arises only in a database without the foreign key on `order_items.product_id` (see "## Left out").

## Model

| member | source | states |
|---|---|---|
| Orders.CheckStock | backend/server.js:152-165 | The validation loop succeeds iff every line's product exists with at least the requested stock. On success its value is Σ price × quantity over the lines. On failure it reports the first failing line, and every earlier line passed. |
| Orders.Snapshot | backend/server.js:173-183 | The created items are one per request line, in order, each with the requested product and quantity and the product's price at that moment. |
| Orders.SnapshotTotal | backend/server.js:164-181 | The total computed from the product prices during validation equals Σ item.price × item.quantity over the created items. |
| Orders.PlaceOrder | backend/server.js:143-194 | Succeeds iff the caller is a customer and every line is in stock. On success: a new `pending` order under the next id with the computed total, items appended after the existing ones, and products unchanged (stock is checked, never deducted). On failure the store is unchanged; a stock failure names the first failing line's product. |
| Orders.ItemsOf | backend/server.js:293-295 | An order's items are exactly the stored items with its order id, each as often as it is stored, taken in insertion order (the query itself fixes no order; see "## Left out"). |
| Orders.Deduct | backend/server.js:297-310 | The loop completes iff each item passes its re-check against the stock left by the items before it; then every product is lowered by the sum of its item quantities. Otherwise it stops at the first failing item with exactly the earlier items deducted, reporting InsufficientStock, or ServerError for a deleted product. Non-negative stock stays non-negative. |
| Orders.DispatchOrder | backend/server.js:279-320 | AccessDenied, NotFound and AlreadyProcessed change nothing. It succeeds iff the order is pending and all its items pass; then the order becomes `dispatched` and each product loses the sum of its item quantities. A failure at item k leaves the order pending with items 0..k-1 deducted, and answers InsufficientStock for item k's product, or ServerError when that product is gone. Stock never goes negative. |
| Orders.CancelOrder | backend/server.js:322-349 | The same guards as dispatch. It succeeds iff the order is pending, and then only the order's status changes, to `cancelled`; no product or item changes. |
| Orders.OrderIds | backend/server.js:251-253 | The listed ids are exactly the admitted stored orders, in strictly descending id order, the model's stand-in for `created_at DESC`. |
| Orders.OrderIdsComplete | backend/server.js:204-207 | Every stored order that the listing's filter admits is among the listed ids. |
| Orders.Join | backend/server.js:258-263 | Each listed item is paired with its product, or with none when the product row is gone. |
| Orders.Listing | backend/server.js:209-235 | Each listed entry is a stored order with its own items and products, belonging to the owner when one is given, newest first. |
| Orders.ListingComplete | backend/server.js:255-269 | Every stored order the filter admits appears in the listing. |
| Orders.ListAllOrders | backend/server.js:245-277 | Only a product manager may list. The listing holds stored orders with their own items and products, newest first, and in a valid store every order appears in it. |
| Orders.ListOrders | backend/server.js:196-243 | A customer sees only their own orders. The reply is a 500 when one of their items' products has been deleted, because the handler then reads the image of a missing product. |
| Lifecycle.Apply | backend/server.js:143-349 | No request removes an order, moves the id counter back, or adds or removes a product. |
| Lifecycle.NoItemsYet | backend/server.js:168-178 | In a valid store no item refers to the id the next order will get. |
| Lifecycle.PlacePreservesValid | backend/server.js:167-183 | Placement keeps the store valid: products and orders sit under their own ids, order ids stay below the counter, and every item's order exists. |
| Lifecycle.DispatchPreservesValid | backend/server.js:297-312 | Dispatch keeps the store valid, including after a partial deduction. |
| Lifecycle.CancelPreservesValid | backend/server.js:340 | Cancel keeps the store valid. |
| Lifecycle.ApplyPreserves | backend/server.js:143-349 | Every request keeps the store valid and every stock non-negative. |
| Lifecycle.RunPreserves | backend/server.js:143-349 | Any sequence of requests keeps the store valid and every stock non-negative. |
| Lifecycle.StatusStep | backend/models/Order.js:9-12 | One request changes an existing order at most in its status, and only from `pending` to `dispatched` or `cancelled`. |
| Lifecycle.ApplyValid | backend/server.js:143-349 | Every request keeps the store valid, whatever its stock levels. |
| Lifecycle.TerminalIsFinal | backend/server.js:289-291 | In any valid store, including one with negative stock, a `dispatched` or `cancelled` order is never changed again, by any sequence of requests. |
| Lifecycle.PlacedItems | backend/server.js:164-183 | After a successful placement, the new order's items are exactly the snapshot of the lines. They give back the request lines, and their captured prices add up to the order's total. |
| Lifecycle.PlacedIsNewest | backend/server.js:245-277 | In the id-ordered listing, a newly placed order comes first, as a pending order with its items and products. |
| Lifecycle.PlacementDoesNotReserve | backend/server.js:155-165 | A placement that succeeded succeeds again when repeated, so orders can be accepted for more than is in stock. |
| Lifecycle.PlaceThenDispatch | backend/server.js:143-320 | Placing 3 of a stock of 5 leaves the stock at 5 with a pending order of 750 cents. Dispatching it leaves 2 and marks the order `dispatched`. |
| Lifecycle.Oversell | backend/server.js:298-305 | Two orders of 3 against a stock of 5 are both accepted. The second dispatch fails with InsufficientStock, leaving the order pending and the stock at 2. |
| Lifecycle.PartialDispatch | backend/server.js:298-310 | One order with two lines of 3 against a stock of 5 is accepted (1500 cents). Its dispatch deducts the first item, fails on the second and leaves the stock at 2 with the order pending. Cancelling it then restores nothing. |
| Cart.TotalPrice | capstone-react/src/pages/Cart.jsx:25-27 | The total is never negative while no entry has a negative price or quantity. |
| Cart.TotalAppend | capstone-react/src/pages/Cart.jsx:25-27 | The cart total (Σ price × qty, 0 for the empty cart) of two carts joined is the sum of their totals. |
| Cart.UpdateQty | capstone-react/src/pages/Cart.jsx:29-35 | Only entry `index` changes, and only in its quantity. The length and every other entry stay the same, and an index outside the cart changes nothing. |
| Cart.UpdateQtyTotal | capstone-react/src/pages/Cart.jsx:25-35 | After `updateQty` the total moves by the entry's price times the change in its quantity. |
| Cart.RemoveItem | capstone-react/src/pages/Cart.jsx:37-39 | Exactly entry `index` is removed and the others keep their order. As multisets, the result plus the removed entry is the cart. |
| Cart.RemoveItemTotal | capstone-react/src/pages/Cart.jsx:25-39 | Removing an entry takes exactly its subtotal off the total. |
| Cart.ClearCart | capstone-react/src/pages/Cart.jsx:41-44 | The cart becomes empty and its total 0. |
| Cart.FirstWithId | capstone-react/src/pages/CustomerProducts.jsx:76 | `find` returns the first entry with the id, or nothing iff no entry has it. |
| Cart.AddToCart | capstone-react/src/pages/CustomerProducts.jsx:73-91 | A new id appends `{id, name, price, qty}`. A known id adds `qty` to the first matching entry and changes nothing else, including the length. Distinct ids stay distinct. |
| Cart.AddToCartTotal | capstone-react/src/pages/CustomerProducts.jsx:76-86 | The total grows by `qty` times the entry's recorded price (the product's price for a new entry). |
| Cart.Payload | capstone-react/src/pages/Cart.jsx:52-55 | The request has one `{product_id, quantity}` per entry, in cart order. |
| Cart.Checkout | capstone-react/src/pages/Cart.jsx:46-76 | An empty cart posts nothing and stays. Otherwise the payload is posted, and the cart is emptied if and only if the order was accepted. A refused checkout leaves the cart as it was. |
| Cart.PayloadTotal | capstone-react/src/pages/Cart.jsx:52-55 | When the cart's prices are the products' current prices, the server's total for the payload is the total the cart showed. |
| Cart.CheckoutPlaces | capstone-react/src/pages/Cart.jsx:46-76 | For a non-empty cart with current prices, the server accepts the checkout iff every entry is in stock. The accepted order's total is the cart total and the cart is emptied. A refusal leaves both the cart and the store unchanged. |
| Catalogue.Filtered | capstone-react/src/pages/CustomerProducts.jsx:50-62 | A product is kept iff the search is empty or occurs in its lower-cased name or category, and the category is "all" or equal. The kept products keep their relative order, and the two passes equal one filter with both tests. |
| Catalogue.FilteredIsOneFilter | capstone-react/src/pages/MainPage.jsx:29-43 | Each pass, taken or skipped, filters like the single combined test. |
| Catalogue.SearchFindsTypedText | capstone-react/src/pages/CustomerProducts.jsx:53-57 | For ASCII text the search is case-insensitive: a name containing the typed text verbatim is found by the lower-cased text. |
| Catalogue.IsLowStock | capstone-react/src/pages/CustomerProducts.jsx:141 | A product gets the low-stock badge when its quantity is below 10; the main page (`MainPage.jsx:157`) and the dashboard count use the same test. |
| Catalogue.Arrange | capstone-react/src/pages/CustomerProducts.jsx:64-67 | The sorted list is a permutation ordered non-decreasing or non-increasing on price or quantity as selected. It is stable: products with equal keys keep their order. "default" keeps the filtered order. |
| Catalogue.View | capstone-react/src/pages/MainPage.jsx:29-52 | The shown list holds exactly the products that match both filters, each as often as in the filtered list. |
| Catalogue.Restock | capstone-react/src/pages/MainPage.jsx:79-93 | An unknown id throws before any change. Otherwise every product with the id gains `amount` units, and every other product and the length stay the same. |
| Catalogue.AddUnitsAt | capstone-react/src/pages/MainPage.jsx:86-92 | `map` restocks each position of the list in place. |
| Catalogue.DeleteItem | capstone-react/src/pages/MainPage.jsx:70-76 | A declined confirmation changes nothing. Otherwise every product with the id is removed, and every other product is kept as often as it occurred, in its order. The length is unchanged iff nothing had the id. |
| Text.Lower | capstone-react/src/pages/CustomerProducts.jsx:55-56 | `toLowerCase` keeps the length, lower-cases A-Z and leaves no upper-case ASCII letter. |
| Text.LowerIdempotent | capstone-react/src/pages/CustomerProducts.jsx:100 | Lower-casing the already lower-cased search text changes nothing. |
| Text.Contains | capstone-react/src/pages/CustomerProducts.jsx:55-56 | `includes` is true iff the needle occurs at some position. |
| Text.ContainsEmpty | capstone-react/src/pages/CustomerProducts.jsx:53 | The empty text occurs in every string, so skipping the search pass for an empty search is the same as running it. |
| Categories.FromProducts | capstone-react/src/App.jsx:14 | Every listed category is some product's category, and every product's category is listed. There are no duplicates, and the order is that of first occurrence in the product list. |
| Dashboard.CategoryCounts | capstone-react/src/pages/DashBoard.jsx:32-35 | The keys are exactly the products' categories, and each count is the number of products with that category. |
| Dashboard.CategoryCountsSum | capstone-react/src/pages/DashBoard.jsx:32-35 | The distinct categories are the map's keys, and the counts over them add up to the number of products. |
| Dashboard.MostStocked | capstone-react/src/pages/DashBoard.jsx:37-44 | The result has min(n, |ps|) products drawn from the list, non-increasing in quantity, and no product left out has more stock than one taken. |
| Dashboard.TopProducts | capstone-react/src/pages/DashBoard.jsx:37-39 | The five most stocked products (all of them when there are fewer), drawn from the list, highest first, and no product left out has more stock than one shown. |
| Dashboard.StockProducts | capstone-react/src/pages/DashBoard.jsx:41-44 | The same for the ten products of the stock chart. |
| Dashboard.TopIsPrefixOfStock | capstone-react/src/pages/DashBoard.jsx:37-44 | `topProducts` is a prefix of `stockProducts`. |
| Dashboard.LowStockCount | capstone-react/src/pages/DashBoard.jsx:102 | The count is the number of positions in the list whose product has quantity < 10. It is 0 iff none is low and the whole list iff all are. |
| Dashboard.LowPositionsCount | capstone-react/src/pages/DashBoard.jsx:102 | `filter(...).length` keeps one product for each position with quantity < 10. |
| Dashboard.LowStockSplit | capstone-react/src/pages/DashBoard.jsx:100-102 | The low-stock products and the rest together are all the products. |
| Dashboard.TotalStock | capstone-react/src/pages/DashBoard.jsx:101 | While no quantity is negative, the total stock is non-negative and at least the stock of every single product. |
| Dashboard.InventoryValue | capstone-react/src/pages/DashBoard.jsx:103-106 | While no price or quantity is negative, the inventory value is non-negative. |
| Dashboard.RestockRaisesStock | capstone-react/src/pages/DashBoard.jsx:101 | After `restock(id, amount)` the total stock Σ quantity grows by `amount` per product with that id. |
| Dashboard.RestockRaisesValue | capstone-react/src/pages/DashBoard.jsx:103-106 | After `restock(id, amount)` the inventory value Σ price × quantity grows by `amount` times the prices of the products with that id. |
| Dashboard.DeleteLowersTotal | capstone-react/src/pages/DashBoard.jsx:101 | After `deleteItem(id)` the total stock falls by exactly the stock of the removed products. |
| Seqs.Select | capstone-react/src/pages/MainPage.jsx:34-42 | `filter` keeps exactly the elements that pass, in order, as a subsequence, and keeps everything iff everything passes. |
| Seqs.SelectCounts | capstone-react/src/pages/MainPage.jsx:34-42 | `filter` keeps every element that passes exactly as often as it occurs, and no other element. |
| Seqs.Distinct | capstone-react/src/App.jsx:14 | De-duplication keeps each element once, with nothing new, in order of first occurrence. |
| Seqs.DistinctCountsSum | capstone-react/src/pages/DashBoard.jsx:32-35 | The occurrence counts of the distinct elements add up to the length of the list. |
| Seqs.SortOn | capstone-react/src/pages/MainPage.jsx:46-49 | The stable sort returns a permutation sorted by the key in which elements with equal keys keep their relative order. |
| Seqs.Take | capstone-react/src/pages/DashBoard.jsx:39 | `slice(0, n)` is the prefix of length min(n, length). |

## Left out

- HTTP, Express routing, Sequelize, database connections, JWT signing and checking, and bcrypt are not modelled. Only the role test of `authorize` is kept, as `Shop.Authorized`.
- Registration, login, product creation and editing (`AddProduct.jsx`, the product CRUD routes) and the server-side `/products` query builder are not modelled. They are form plumbing and library-defined query descriptors.
- Images are not modelled: the upload, the blob column and the base64 conversions are buffer handling. Product descriptions and weights are not modelled either; no logic reads them.
- Concurrent requests are not modelled; requests are served one after the other. The code takes no locks, so two interleaved dispatches could race, and that case is outside the model.
- Timestamps are not modelled. The listings' `created_at DESC` order is modelled as descending order id, since ids are handed out in creation order.
- Lifecycle.PlacedIsNewest: two orders can have the same `created_at`. This happens when both are created within the column's resolution (one second for a MySQL `DATETIME`) or when the clock steps back. `ORDER BY created_at DESC` (`backend/server.js:206`, `backend/server.js:252`) then returns the tied rows in an order the query does not fix. The model breaks such ties by id, so the new order heads the listing in the model but is not guaranteed to head the real one. `Orders.OrderIds` and `Orders.Listing` make the same choice.
- The ids of `order_items` rows are not modelled; items are a sequence in insertion order.
- JavaScript number arithmetic on prices is not modelled. Prices are exact integer cents, and Sequelize's string form of `DECIMAL` values is not modelled either.
- React state, effects, `localStorage`, alerts, navigation and Chart.js are not modelled. The cart is the value the pages read and write. `Cart.Checkout` takes the server's answer as a parameter.
- The `restock` request to `PUT /products/:id` is not modelled; only the main page's list update is.
- Catalogue.DeleteItem: only the list update after a completed `DELETE /products/:id` request is modelled. `deleteItem` updates the list only once `await deleteProduct(id)` resolves (`capstone-react/src/pages/MainPage.jsx:73-75`). If the request fails, for example because the database refuses to delete a product that order items reference, the list keeps the product. That case is not modelled.
- Cart.UpdateQty: the `Number(qty)` conversion of the input's text is not modelled, and the quantity is taken to be an integer already. The same holds for the `qty` argument of `Cart.AddToCart`.
- Text.Lower: only ASCII letters are lower-cased. Unicode case mapping is not modelled.
- Catalogue.SearchFindsTypedText: the lemma holds for the ASCII-only `Text.Lower`, not for JavaScript's `toLowerCase`. The latter applies context rules such as Greek final sigma. For a name "ΟΔΟΣΑ" that contains the typed text "ΟΔΟΣ", the page lower-cases the typed text to "οδος" (`CustomerProducts.jsx:100`) and looks for it in "οδοσα" (`CustomerProducts.jsx:55`), where it does not occur, so that product is not found.
- Catalogue.Filtered: a product whose category is null is not modelled; categories are always strings here. In the page, such a product makes the search throw only when the search text is non-empty and does not occur in the product's name, because `||` does not evaluate the category test otherwise.
- Dashboard.CategoryCounts: the order of the object's keys is not modelled. That order fixes the order of the chart's bars, and JavaScript puts integer-like keys first. The count map is unordered. Categories named after an `Object.prototype` property are not modelled either: `categoryMap` is a plain `{}`, so a category `"constructor"` starts from the inherited function and its entry becomes a string, and the assignment for `"__proto__"` never creates a key. The model counts every category, these names included, as an ordinary key.
- Orders.PlaceOrder: request bodies other than a list of `{product_id, quantity}` objects with integer quantities are not modelled. The handler treats them in different ways. A missing or non-iterable `items` throws before any write (a 500). A string `items` is iterated by character, finds no product and answers 400. A numeric string quantity is converted by `<` and `*`, and the order goes through. A `null` quantity passes the stock test and adds 0 to the total. The order row is then written, and `OrderItem.create` fails on the non-null quantity column (`backend/models/OrderItem.js:11`), giving a 500 that leaves the order without its items.
- Orders.ItemsOf: the model returns an order's items in insertion (primary-key) order. `OrderItem.findAll` with only a `where` clause (`backend/server.js:293-295`) has no `order` option, so the database chooses the row order and does not guarantee this one. The order matters: it decides which items a failed dispatch has already deducted. For example, with stock 5 of P and 2 of Q, items [P×3, Q×10] stop at Q with P lowered to 2, while [Q×10, P×3] stop at once with nothing deducted.
- Orders.PlaceOrder: the column ranges are not modelled. Prices and totals are `DECIMAL(10,2)` (`backend/models/Order.js:14`, `backend/models/OrderItem.js:13`), so at most 99,999,999.99, and quantities are `INTEGER`. The model's integers are unbounded and accept any total. In the database, a total or price outside its column makes `Order.create` or `OrderItem.create` fail; under a strict SQL mode that is a 500. Only a failed `Order.create` leaves nothing written.
- Orders.ListOrders: the model's store may hold order items whose product is gone, and the 500 replies for a missing product in `Orders.ListOrders`, `Orders.ListAllOrders` and `Orders.Deduct` come only from such items. The tables that `sequelize.sync()` creates (`backend/server.js:12`, `backend/server.js:32`) carry a foreign key from `order_items.product_id` to `products`, with no cascade. Under it, `Product.destroy` (`backend/server.js:138`) is refused for a product that any item references, so those 500 paths arise only in a database without that constraint. `Shop.Valid` does not require every item's product to exist.

=== FILE: cart.dfy ===
/** The customer's cart (capstone-react/src/pages/Cart.jsx and `addToCart`
    of CustomerProducts.jsx): a sequence of entries kept in local storage,
    the updates the pages make to it, its total, and the request a checkout
    posts to `POST /orders`. */
module Cart {
  import opened Shop
  import opened Seqs
  import opened Orders

  /** A cart entry `{id, name, price, qty}`; `price` is the product's price
      when it was first added. */
  datatype Entry = Entry(id: int, name: string, price: int, qty: int)

  /** What one entry costs: price × qty. */
  function Subtotal(e: Entry): int {
    e.price * e.qty
  }

  /** Changing an entry's quantity changes what it costs by the price
      times the change. */
  lemma SubtotalChange(e: Entry, f: Entry, qty: int)
    requires f.price == e.price && f.qty == qty
    ensures Subtotal(f) - Subtotal(e) == e.price * (qty - e.qty)
  {
    Distribute(e.price, qty, e.qty);
  }

  lemma SubtotalMore(e: Entry, f: Entry, more: int)
    requires f.price == e.price && f.qty == e.qty + more
    ensures Subtotal(f) == Subtotal(e) + e.price * more
  {
    Spread(e.price, e.qty, more);
  }

  /** No entry has a negative price or quantity. */
  predicate NonNegativeEntries(cart: seq<Entry>) {
    forall i :: 0 <= i < |cart| ==> cart[i].price >= 0 && cart[i].qty >= 0
  }

  /** The cart's `totalPrice`: Σ price × qty, summed left to right. It is
      never negative while no price or quantity is. */
  function TotalPrice(cart: seq<Entry>): (t: int)
    ensures NonNegativeEntries(cart) ==> t >= 0
    decreases |cart|
  {
    if |cart| == 0 then 0
    else
      var init := cart[..|cart| - 1];
      assert forall i :: 0 <= i < |init| ==> init[i] == cart[i];
      TotalPrice(init) + Subtotal(cart[|cart| - 1])
  }

  /** The total of two carts one after the other is the sum of their totals. */
  lemma {:induction false} TotalAppend(a: seq<Entry>, b: seq<Entry>)
    ensures TotalPrice(a + b) == TotalPrice(a) + TotalPrice(b)
    decreases |b|
  {
    if |b| == 0 {
      assert a + b == a;
    } else {
      var init := b[..|b| - 1];
      TotalAppend(a, init);
      assert (a + b)[..|a + b| - 1] == a + init;
    }
  }

  lemma TotalSingle(e: Entry)
    ensures TotalPrice([e]) == Subtotal(e)
  {
    assert [e][..0] == [];
  }

  /** The total is what comes before an entry, the entry, and what comes
      after it. */
  lemma TotalSplit(cart: seq<Entry>, i: int)
    requires 0 <= i < |cart|
    ensures TotalPrice(cart) == TotalPrice(cart[..i]) + Subtotal(cart[i]) + TotalPrice(cart[i + 1..])
  {
    var before, entry, after := cart[..i], [cart[i]], cart[i + 1..];
    assert cart == (before + entry) + after;
    assert TotalPrice(cart) == TotalPrice(before + entry) + TotalPrice(after) by {
      TotalAppend(before + entry, after);
    }
    assert TotalPrice(before + entry) == TotalPrice(before) + TotalPrice(entry) by {
      TotalAppend(before, entry);
    }
    assert TotalPrice(entry) == Subtotal(cart[i]) by {
      TotalSingle(cart[i]);
    }
  }

  /** Changing one entry, and only it, changes the total by the difference
      of the two entries' subtotals. */
  lemma TotalReplace(cart: seq<Entry>, changed: seq<Entry>, i: int)
    requires 0 <= i < |cart| == |changed|
    requires forall j :: 0 <= j < |cart| && j != i ==> changed[j] == cart[j]
    ensures TotalPrice(changed) == TotalPrice(cart) - Subtotal(cart[i]) + Subtotal(changed[i])
  {
    TotalSplit(cart, i);
    TotalSplit(changed, i);
    assert changed[..i] == cart[..i];
    assert changed[i + 1..] == cart[i + 1..];
  }

  /** Changing only the quantity of one entry moves the total by its price
      times the change. */
  lemma QuantityChangeTotal(cart: seq<Entry>, changed: seq<Entry>, i: int, qty: int)
    requires 0 <= i < |cart| == |changed|
    requires forall j :: 0 <= j < |cart| && j != i ==> changed[j] == cart[j]
    requires changed[i].price == cart[i].price && changed[i].qty == qty
    ensures TotalPrice(changed) == TotalPrice(cart) + cart[i].price * (qty - cart[i].qty)
  {
    TotalReplace(cart, changed, i);
    SubtotalChange(cart[i], changed[i], qty);
  }

  /** `updateQty(index, qty)`: the entry at `index` gets the new quantity;
      an index outside the cart changes nothing. */
  function UpdateQty(cart: seq<Entry>, index: int, qty: int): (r: seq<Entry>)
    ensures |r| == |cart|
    ensures forall i :: 0 <= i < |cart| && i != index ==> r[i] == cart[i]
    ensures 0 <= index < |cart| ==> r[index] == cart[index].(qty := qty)
    ensures !(0 <= index < |cart|) ==> r == cart
  {
    if 0 <= index < |cart| then cart[index := cart[index].(qty := qty)] else cart
  }

  /** The total after `updateQty` moves by the entry's price times the change
      of its quantity. */
  lemma UpdateQtyTotal(cart: seq<Entry>, index: int, qty: int)
    requires 0 <= index < |cart|
    ensures TotalPrice(UpdateQty(cart, index, qty))
         == TotalPrice(cart) + cart[index].price * (qty - cart[index].qty)
  {
    QuantityChangeTotal(cart, UpdateQty(cart, index, qty), index, qty);
  }

  /** `removeItem(index)`: the entries at every other index, in order. */
  function RemoveItem(cart: seq<Entry>, index: int): (r: seq<Entry>)
    ensures 0 <= index < |cart| ==> |r| == |cart| - 1
    ensures !(0 <= index < |cart|) ==> r == cart
    ensures forall i :: 0 <= i < |r| ==> r[i] == if 0 <= index <= i then cart[i + 1] else cart[i]
    ensures 0 <= index < |cart| ==> multiset(r) + multiset{cart[index]} == multiset(cart)
  {
    if 0 <= index < |cart| then
      assert cart == cart[..index] + [cart[index]] + cart[index + 1..];
      cart[..index] + cart[index + 1..]
    else cart
  }

  /** Removing an entry takes its subtotal off the total. */
  lemma RemoveItemTotal(cart: seq<Entry>, index: int)
    requires 0 <= index < |cart|
    ensures TotalPrice(RemoveItem(cart, index)) == TotalPrice(cart) - Subtotal(cart[index])
  {
    TotalSplit(cart, index);
    TotalAppend(cart[..index], cart[index + 1..]);
  }

  /** `clearCart`: nothing is left and nothing is owed. */
  function ClearCart(cart: seq<Entry>): (r: seq<Entry>)
    ensures |r| == 0 && TotalPrice(r) == 0
  {
    []
  }

  // ---------------------------------------------------------------------------
  // addToCart
  // ---------------------------------------------------------------------------

  /** `cart.find(item => item.id === id)`, as the index it finds. */
  function FirstWithId(cart: seq<Entry>, id: int): (r: Option<nat>)
    ensures r.None? <==> forall i :: 0 <= i < |cart| ==> cart[i].id != id
    ensures r.Some? ==>
      && r.value < |cart| && cart[r.value].id == id
      && forall j :: 0 <= j < r.value ==> cart[j].id != id
    decreases |cart|
  {
    if |cart| == 0 then None
    else if cart[0].id == id then Some(0)
    else
      match FirstWithId(cart[1..], id)
      case None => None
      case Some(k) => Some(k + 1)
  }

  /** No id occurs in two entries. */
  predicate DistinctIds(cart: seq<Entry>) {
    forall i, j :: 0 <= i < j < |cart| ==> cart[i].id != cart[j].id
  }

  /** The entry at `k` gets `more` units. */
  function Bump(cart: seq<Entry>, k: int, more: int): (r: seq<Entry>)
    requires 0 <= k < |cart|
    ensures |r| == |cart| && r[k] == cart[k].(qty := cart[k].qty + more)
    ensures forall j :: 0 <= j < |cart| && j != k ==> r[j] == cart[j]
  {
    cart[k := cart[k].(qty := cart[k].qty + more)]
  }

  /** Adding units to one entry raises the total by its price times those units. */
  lemma BumpTotal(cart: seq<Entry>, k: int, more: int)
    requires 0 <= k < |cart|
    ensures TotalPrice(Bump(cart, k, more)) == TotalPrice(cart) + cart[k].price * more
  {
    var r := Bump(cart, k, more);
    assert TotalPrice(r) == TotalPrice(cart) - Subtotal(cart[k]) + Subtotal(r[k]) by {
      TotalReplace(cart, r, k);
    }
    assert Subtotal(r[k]) == Subtotal(cart[k]) + cart[k].price * more by {
      SubtotalMore(cart[k], r[k], more);
    }
  }

  /** `addToCart(product, qty)`: an entry for the product already in the
      cart gets `qty` more (its name and price stay as they were); otherwise
      an entry for the product is appended. */
  function AddToCart(cart: seq<Entry>, p: Product, qty: int): (r: seq<Entry>)
    ensures (forall i :: 0 <= i < |cart| ==> cart[i].id != p.id) ==>
      r == cart + [Entry(p.id, p.name, p.price, qty)]
    ensures (exists i :: 0 <= i < |cart| && cart[i].id == p.id) ==>
      && |r| == |cart|
      && exists k :: 0 <= k < |cart|
           && cart[k].id == p.id && (forall j :: 0 <= j < k ==> cart[j].id != p.id)
           && r[k] == cart[k].(qty := cart[k].qty + qty)
           && (forall j :: 0 <= j < |cart| && j != k ==> r[j] == cart[j])
    ensures DistinctIds(cart) ==> DistinctIds(r)
  {
    match FirstWithId(cart, p.id)
    case Some(k) => Bump(cart, k, qty)
    case None => cart + [Entry(p.id, p.name, p.price, qty)]
  }

  /** The two branches of `AddToCart`, each on its own. */
  lemma AddToCartAt(cart: seq<Entry>, p: Product, qty: int, k: nat)
    requires FirstWithId(cart, p.id) == Some(k)
    ensures AddToCart(cart, p, qty) == Bump(cart, k, qty)
  {
  }

  lemma AddToCartNew(cart: seq<Entry>, p: Product, qty: int)
    requires FirstWithId(cart, p.id).None?
    ensures AddToCart(cart, p, qty) == cart + [Entry(p.id, p.name, p.price, qty)]
  {
  }

  /** Adding `qty` of a product raises the total by `qty` times the price of
      its entry: the price recorded when it was first added, if it was. */
  lemma AddToCartTotal(cart: seq<Entry>, p: Product, qty: int)
    ensures
      var price := match FirstWithId(cart, p.id) case Some(k) => cart[k].price case None => p.price;
      TotalPrice(AddToCart(cart, p, qty)) == TotalPrice(cart) + price * qty
  {
    match FirstWithId(cart, p.id)
    case Some(k) =>
      AddToCartAt(cart, p, qty, k);
      BumpTotal(cart, k, qty);
    case None =>
      var added := Entry(p.id, p.name, p.price, qty);
      AddToCartNew(cart, p, qty);
      TotalAppend(cart, [added]);
      TotalSingle(added);
  }

  // ---------------------------------------------------------------------------
  // checkout
  // ---------------------------------------------------------------------------

  /** The `items` array of the checkout request: `{product_id: id, quantity: qty}`
      per entry, in cart order. */
  function Payload(cart: seq<Entry>): (r: seq<Line>)
    ensures |r| == |cart|
    ensures forall i :: 0 <= i < |cart| ==> r[i] == Line(cart[i].id, cart[i].qty)
  {
    seq(|cart|, i requires 0 <= i < |cart| => Line(cart[i].id, cart[i].qty))
  }

  /** What `checkout` does: the request it posts, if any, and the cart
      afterwards. */
  datatype Outcome = Outcome(sent: Option<seq<Line>>, cart: seq<Entry>)

  /** `checkout`, given whether the server accepted the request: an empty
      cart posts nothing; otherwise the payload is posted, and the cart is
      emptied only when the request succeeded. */
  function Checkout(cart: seq<Entry>, accepted: bool): (r: Outcome)
    ensures |cart| == 0 ==> r == Outcome(None, cart)
    ensures |cart| > 0 ==> r.sent == Some(Payload(cart))
    ensures |cart| > 0 && accepted ==> r.cart == []
    ensures !accepted ==> r.cart == cart
    ensures r.cart != cart ==> |cart| > 0 && accepted
  {
    if |cart| == 0 then Outcome(None, cart)
    else if accepted then Outcome(Some(Payload(cart)), [])
    else Outcome(Some(Payload(cart)), cart)
  }

  /** The entries' prices are the products' current prices. */
  predicate PricesCurrent(products: map<int, Product>, cart: seq<Entry>) {
    forall i :: 0 <= i < |cart| ==>
      cart[i].id in products && products[cart[i].id].price == cart[i].price
  }

  /** While the prices are current, the server's total for the payload is
      the cart's total. */
  lemma {:induction false} PayloadTotal(products: map<int, Product>, cart: seq<Entry>)
    requires PricesCurrent(products, cart)
    ensures LinesTotal(products, Payload(cart)) == TotalPrice(cart)
    decreases |cart|
  {
    if |cart| > 0 {
      var init := cart[..|cart| - 1];
      assert PricesCurrent(products, init) by {
        assert forall i :: 0 <= i < |init| ==> init[i] == cart[i];
      }
      PayloadTotal(products, init);
      assert Payload(cart)[..|cart| - 1] == Payload(init);
    }
  }

  /** A checkout of a non-empty cart whose prices are current: the server
      accepts it exactly when every entry is in stock, and the accepted
      order's total is the total the cart showed, after which the cart is
      empty. */
  lemma CheckoutPlaces(s: Store, who: Principal, cart: seq<Entry>)
    requires Authorized(who, Customer) && |cart| > 0 && PricesCurrent(s.products, cart)
    ensures
      var placed := PlaceOrder(s, who, Payload(cart));
      var after := Checkout(cart, placed.reply.Ok?);
      && after.sent == Some(Payload(cart))
      && (placed.reply.Ok? <==> forall i :: 0 <= i < |cart| ==> s.products[cart[i].id].quantity >= cart[i].qty)
      && (placed.reply.Ok? ==> placed.store.orders[placed.reply.value].totalPrice == TotalPrice(cart) && after.cart == [])
      && (placed.reply.Err? ==> after.cart == cart && placed.store == s)
  {
    var lines := Payload(cart);
    assert forall i :: 0 <= i < |cart| ==>
      (InStock(s.products, lines[i]) <==> s.products[cart[i].id].quantity >= cart[i].qty);
    PayloadTotal(s.products, cart);
  }
}

=== FILE: catalogue.dfy ===
/** The product lists of the product manager's main page (MainPage.jsx) and
    the customer's product page (CustomerProducts.jsx): the search and
    category filter, the sort selector, and the edits the main page makes to
    its list after a restock or a delete. */
module Catalogue {
  import opened Shop
  import opened Seqs
  import opened Text

  /** The category selector's value that turns the category filter off. */
  const AllCategories := "all"

  /** A product with fewer units than this is flagged "Low Stock". */
  const LowStockThreshold := 10

  predicate IsLowStock(p: Product) {
    p.quantity < LowStockThreshold
  }

  // ---------------------------------------------------------------------------
  // Filtering
  // ---------------------------------------------------------------------------

  /** The search box keeps the lower-cased text typed; a product matches
      when that text is empty or occurs in its lower-cased name or
      category. */
  predicate MatchesSearch(p: Product, search: string) {
    |search| == 0 || Contains(Lower(p.name), search) || Contains(Lower(p.category), search)
  }

  predicate MatchesCategory(p: Product, category: string) {
    category == AllCategories || p.category == category
  }

  function SearchKeep(search: string): Product -> bool {
    (p: Product) => Contains(Lower(p.name), search) || Contains(Lower(p.category), search)
  }

  function CategoryKeep(category: string): Product -> bool {
    (p: Product) => p.category == category
  }

  /** Both filters at once, as one test per product. */
  function Keep(search: string, category: string): Product -> bool {
    (p: Product) => MatchesSearch(p, search) && MatchesCategory(p, category)
  }

  /** The filter step: a search pass when the search text is non-empty, then
      a category pass when a category is selected. */
  function Filtered(ps: seq<Product>, search: string, category: string): (r: seq<Product>)
    ensures r == Select(ps, Keep(search, category))
    ensures forall p :: p in r <==> p in ps && MatchesSearch(p, search) && MatchesCategory(p, category)
    ensures IsSubsequence(r, ps)
  {
    var searched := if |search| > 0 then Select(ps, SearchKeep(search)) else ps;
    var r := if category != AllCategories then Select(searched, CategoryKeep(category)) else searched;
    FilteredIsOneFilter(ps, search, category);
    r
  }

  /** The two passes, each taken or skipped, filter like `Keep` does. */
  lemma FilteredIsOneFilter(ps: seq<Product>, search: string, category: string)
    ensures
      var searched := if |search| > 0 then Select(ps, SearchKeep(search)) else ps;
      var r := if category != AllCategories then Select(searched, CategoryKeep(category)) else searched;
      r == Select(ps, Keep(search, category))
  {
    var keep := Keep(search, category);
    if |search| > 0 && category != AllCategories {
      SelectSelect(ps, SearchKeep(search), CategoryKeep(category), keep);
    } else if |search| > 0 {
      SelectSelect(ps, SearchKeep(search), (p: Product) => true, keep);
      SelectAll(Select(ps, SearchKeep(search)), (p: Product) => true);
    } else if category != AllCategories {
      SelectSelect(ps, (p: Product) => true, CategoryKeep(category), keep);
      SelectAll(ps, (p: Product) => true);
    } else {
      SelectAll(ps, keep);
    }
  }

  /** For ASCII text the search is case-insensitive: a product whose name
      contains the typed text verbatim is found by the lower-cased text. */
  lemma {:induction false} SearchFindsTypedText(p: Product, typed: string)
    requires Contains(p.name, typed)
    ensures MatchesSearch(p, Lower(typed))
  {
    var i :| OccursAt(p.name, typed, i);
    var low := Lower(p.name);
    assert low[i..i + |typed|] == Lower(typed) by {
      forall k | 0 <= k < |typed| ensures low[i..i + |typed|][k] == Lower(typed)[k] {
        assert p.name[i..i + |typed|][k] == typed[k];
      }
    }
    assert OccursAt(low, Lower(typed), i);
  }

  // ---------------------------------------------------------------------------
  // Sorting
  // ---------------------------------------------------------------------------

  /** The sort selector; `Default` leaves the filtered order. */
  datatype SortOrder =
    | Default
    | PriceLowToHigh
    | PriceHighToLow
    | QuantityLowToHigh
    | QuantityHighToLow

  /** The comparator of each order as a sort key: `(a, b) => a.price - b.price`
      sorts by price, `(a, b) => b.price - a.price` by the negated price. */
  function Key(order: SortOrder): Product -> int {
    match order
    case Default => (p: Product) => 0
    case PriceLowToHigh => (p: Product) => p.price
    case PriceHighToLow => (p: Product) => -p.price
    case QuantityLowToHigh => (p: Product) => p.quantity
    case QuantityHighToLow => (p: Product) => -p.quantity
  }

  /** `filtered.sort(...)` for the selected order (a stable sort), or the
      list as it is. The result holds the same products, ordered as
      selected, and products that compare equal keep their relative order. */
  function Arrange(ps: seq<Product>, order: SortOrder): (r: seq<Product>)
    ensures multiset(r) == multiset(ps) && |r| == |ps|
    ensures order == Default ==> r == ps
    ensures order == PriceLowToHigh ==> forall i, j :: 0 <= i < j < |r| ==> r[i].price <= r[j].price
    ensures order == PriceHighToLow ==> forall i, j :: 0 <= i < j < |r| ==> r[i].price >= r[j].price
    ensures order == QuantityLowToHigh ==> forall i, j :: 0 <= i < j < |r| ==> r[i].quantity <= r[j].quantity
    ensures order == QuantityHighToLow ==> forall i, j :: 0 <= i < j < |r| ==> r[i].quantity >= r[j].quantity
    ensures forall v :: WithKey(r, Key(order), v) == WithKey(ps, Key(order), v)
  {
    if order == Default then ps
    else
      var r := SortOn(ps, Key(order));
      assert forall i, j :: 0 <= i < j < |r| ==> Key(order)(r[i]) <= Key(order)(r[j]);
      r
  }

  /** What the page lists: the filtered products in the selected order. */
  function View(ps: seq<Product>, search: string, category: string, order: SortOrder): (r: seq<Product>)
    ensures forall p :: p in r <==> p in ps && MatchesSearch(p, search) && MatchesCategory(p, category)
    ensures multiset(r) == multiset(Select(ps, Keep(search, category)))
  {
    var r := Arrange(Filtered(ps, search, category), order);
    assert forall p :: p in r <==> p in multiset(r);
    r
  }

  // ---------------------------------------------------------------------------
  // Edits of the main page's list
  // ---------------------------------------------------------------------------

  /** One product after `restock(id, amount)`: more units if it has that id. */
  function Restocked(p: Product, id: int, amount: int): Product {
    if p.id == id then p.(quantity := p.quantity + amount) else p
  }

  /** The list update of `restock`, `products.map(...)` over the list. */
  function AddUnits(ps: seq<Product>, id: int, amount: int): (r: seq<Product>)
    ensures |r| == |ps|
    decreases |ps|
  {
    if |ps| == 0 then [] else [Restocked(ps[0], id, amount)] + AddUnits(ps[1..], id, amount)
  }

  /** Every product of the list is restocked in place. */
  lemma {:induction false} AddUnitsAt(ps: seq<Product>, id: int, amount: int)
    ensures forall i :: 0 <= i < |ps| ==> AddUnits(ps, id, amount)[i] == Restocked(ps[i], id, amount)
    decreases |ps|
  {
    if |ps| > 0 {
      AddUnitsAt(ps[1..], id, amount);
      var r := AddUnits(ps, id, amount);
      forall i | 1 <= i < |ps| ensures r[i] == Restocked(ps[i], id, amount) {
        assert r[i] == AddUnits(ps[1..], id, amount)[i - 1];
      }
    }
  }

  /** `restock(id, amount)`: the product is looked up first, and when no
      product has that id the handler throws before anything is sent or
      changed; otherwise the list gets the units. */
  function Restock(ps: seq<Product>, id: int, amount: int): (r: Option<seq<Product>>)
    ensures r.None? <==> forall i :: 0 <= i < |ps| ==> ps[i].id != id
    ensures r.Some? ==> |r.value| == |ps|
    ensures r.Some? ==> forall i :: 0 <= i < |ps| ==>
      && (ps[i].id == id ==> r.value[i] == ps[i].(quantity := ps[i].quantity + amount))
      && (ps[i].id != id ==> r.value[i] == ps[i])
  {
    if forall i :: 0 <= i < |ps| ==> ps[i].id != id then None
    else
      AddUnitsAt(ps, id, amount);
      Some(AddUnits(ps, id, amount))
  }

  function Others(id: int): Product -> bool {
    (p: Product) => p.id != id
  }

  /** `deleteItem(id)` once the confirmation was accepted: every product
      with that id leaves the list, the rest stay in order. A declined
      confirmation changes nothing. */
  function DeleteItem(ps: seq<Product>, id: int, confirmed: bool): (r: seq<Product>)
    ensures !confirmed ==> r == ps
    ensures confirmed ==> forall p :: p in r <==> p in ps && p.id != id
    ensures confirmed ==> CountsKept(r, ps, Others(id))
    ensures IsSubsequence(r, ps)
    ensures |r| == |ps| <==> !confirmed || forall i :: 0 <= i < |ps| ==> ps[i].id != id
  {
    if !confirmed then
      assert IsSubsequence(ps, ps) by { SubsequenceRefl(ps); }
      ps
    else
      SelectCounts(ps, Others(id));
      Select(ps, Others(id))
  }
}

=== FILE: categories.dfy ===
/** The category list of capstone-react/src/App.jsx: the categories of the
    fetched products, de-duplicated through a `Set`, which the category
    selectors offer. */
module Categories {
  import opened Shop
  import opened Seqs

  /** `products.map(p => p.category)`. */
  function CategoryList(ps: seq<Product>): (r: seq<string>)
    ensures |r| == |ps|
    ensures forall i :: 0 <= i < |ps| ==> r[i] == ps[i].category
  {
    seq(|ps|, i requires 0 <= i < |ps| => ps[i].category)
  }

  /** `[...new Set(products.map(p => p.category))]`: each category once,
      every product's category present, nothing else, in the order in which
      the categories first occur in the product list. */
  function FromProducts(ps: seq<Product>): (r: seq<string>)
    ensures forall c :: c in r <==> c in CategoryList(ps)
    ensures forall c :: c in r ==> exists i :: 0 <= i < |ps| && ps[i].category == c
    ensures forall i :: 0 <= i < |ps| ==> ps[i].category in r
    ensures NoDuplicates(r)
    ensures forall i, j :: 0 <= i < j < |r| ==>
      IndexOf(CategoryList(ps), r[i]) < IndexOf(CategoryList(ps), r[j])
  {
    var cats := CategoryList(ps);
    var r := Distinct(cats);
    assert forall c :: c in cats ==> exists i :: 0 <= i < |ps| && ps[i].category == c;
    assert forall i :: 0 <= i < |ps| ==> cats[i] in cats;
    r
  }
}

=== FILE: dashboard.dfy ===
/** The product manager's dashboard (capstone-react/src/pages/DashBoard.jsx):
    products per category, the most stocked products, and the key figures
    total stock, low-stock count and inventory value. */
module Dashboard {
  import opened Shop
  import opened Seqs
  import opened Catalogue
  import opened Categories

  // ---------------------------------------------------------------------------
  // categoryMap
  // ---------------------------------------------------------------------------

  /** The categories the products carry. */
  function CategorySet(ps: seq<Product>): set<string> {
    set i | 0 <= i < |ps| :: ps[i].category
  }

  /** `categoryMap`: walking the products in order, the count of each
      product's category goes up by one (from nothing to 1 the first time). */
  function CategoryCounts(ps: seq<Product>): (m: map<string, nat>)
    ensures m.Keys == CategorySet(ps)
    ensures forall c :: c in m ==> m[c] == multiset(CategoryList(ps))[c]
    decreases |ps|
  {
    if |ps| == 0 then map[]
    else
      var init := ps[..|ps| - 1];
      var c := ps[|ps| - 1].category;
      var m := CategoryCounts(init);
      CountedKeys(ps, m);
      CountedTimes(ps, m);
      m[c := (if c in m then m[c] else 0) + 1]
  }

  /** One more product adds its category to the keys of the counts ... */
  lemma CountedKeys(ps: seq<Product>, m: map<string, nat>)
    requires |ps| > 0
    requires m.Keys == CategorySet(ps[..|ps| - 1])
    ensures
      var c := ps[|ps| - 1].category;
      m[c := (if c in m then m[c] else 0) + 1].Keys == CategorySet(ps)
  {
    var c := ps[|ps| - 1].category;
    var r := m[c := (if c in m then m[c] else 0) + 1];
    forall x | x in r.Keys ensures x in CategorySet(ps) {
      if x != c {
        var i :| 0 <= i < |ps| - 1 && ps[..|ps| - 1][i].category == x;
        assert ps[i].category == x;
      }
    }
    forall x | x in CategorySet(ps) ensures x in r.Keys {
      var i :| 0 <= i < |ps| && ps[i].category == x;
      if i < |ps| - 1 {
        assert ps[..|ps| - 1][i].category == x;
      }
    }
  }

  /** ... and counts it once more. */
  lemma CountedTimes(ps: seq<Product>, m: map<string, nat>)
    requires |ps| > 0
    requires forall c :: c in m ==> m[c] == multiset(CategoryList(ps[..|ps| - 1]))[c]
    requires m.Keys == CategorySet(ps[..|ps| - 1])
    ensures
      var c := ps[|ps| - 1].category;
      var r := m[c := (if c in m then m[c] else 0) + 1];
      forall x :: x in r ==> r[x] == multiset(CategoryList(ps))[x]
  {
    var c := ps[|ps| - 1].category;
    var before := CategoryList(ps[..|ps| - 1]);
    assert CategoryList(ps) == before + [c];
    assert c !in m ==> c !in before;
  }

  /** Σ of the counts over `keys`. */
  function CountsTotal(keys: seq<string>, m: map<string, nat>): nat
    requires forall i :: 0 <= i < |keys| ==> keys[i] in m
    decreases |keys|
  {
    if |keys| == 0 then 0
    else CountsTotal(keys[..|keys| - 1], m) + m[keys[|keys| - 1]]
  }

  lemma {:induction false} CountsTotalIsSumCounts(keys: seq<string>, m: map<string, nat>, cats: seq<string>)
    requires forall i :: 0 <= i < |keys| ==> keys[i] in m
    requires forall c :: c in m ==> m[c] == multiset(cats)[c]
    ensures CountsTotal(keys, m) == SumCounts(keys, multiset(cats))
    decreases |keys|
  {
    if |keys| > 0 {
      CountsTotalIsSumCounts(keys[..|keys| - 1], m, cats);
    }
  }

  /** The chart's categories are the distinct categories, and the bars add
      up to the number of products. */
  lemma CategoryCountsSum(ps: seq<Product>)
    ensures forall i :: 0 <= i < |FromProducts(ps)| ==> FromProducts(ps)[i] in CategoryCounts(ps)
    ensures forall c :: c in CategoryCounts(ps) ==> c in FromProducts(ps)
    ensures CountsTotal(FromProducts(ps), CategoryCounts(ps)) == |ps|
  {
    var cats := CategoryList(ps);
    var m := CategoryCounts(ps);
    var keys := FromProducts(ps);
    forall i | 0 <= i < |keys| ensures keys[i] in m {
      assert keys[i] in keys;
      var k := IndexOf(cats, keys[i]);
      assert ps[k].category == keys[i];
    }
    CountsTotalIsSumCounts(keys, m, cats);
    DistinctCountsSum(cats);
  }

  // ---------------------------------------------------------------------------
  // topProducts and stockProducts
  // ---------------------------------------------------------------------------

  const TopCount := 5
  const StockChartCount := 10

  /** The products by quantity, highest first, ties in list order. */
  function ByQuantity(ps: seq<Product>): (r: seq<Product>)
    ensures multiset(r) == multiset(ps) && |r| == |ps|
    ensures forall i, j :: 0 <= i < j < |r| ==> r[i].quantity >= r[j].quantity
  {
    Arrange(ps, QuantityHighToLow)
  }

  /** No product of `ps` left out of `taken` has more stock than one taken. */
  predicate NoneLeftAbove(ps: seq<Product>, taken: seq<Product>) {
    forall x, y :: x in multiset(ps) - multiset(taken) && y in taken ==> x.quantity <= y.quantity
  }

  /** The `n` most stocked products: as many as there are, up to `n`, highest
      first, drawn from the list, and no product left out has more stock
      than one taken. */
  function MostStocked(ps: seq<Product>, n: nat): (r: seq<Product>)
    ensures |r| == if |ps| < n then |ps| else n
    ensures forall i, j :: 0 <= i < j < |r| ==> r[i].quantity >= r[j].quantity
    ensures multiset(r) <= multiset(ps)
    ensures NoneLeftAbove(ps, r)
  {
    var sorted := ByQuantity(ps);
    TakeLeavesLess(sorted, n);
    Take(sorted, n)
  }

  /** Cutting a list sorted by quantity, highest first, leaves out nothing
      with more stock than what is kept. */
  lemma TakeLeavesLess(sorted: seq<Product>, n: nat)
    requires forall i, j :: 0 <= i < j < |sorted| ==> sorted[i].quantity >= sorted[j].quantity
    ensures multiset(Take(sorted, n)) <= multiset(sorted)
    ensures forall x, y :: x in multiset(sorted) - multiset(Take(sorted, n)) && y in Take(sorted, n) ==>
      x.quantity <= y.quantity
  {
    var k := |Take(sorted, n)|;
    SplitMultiset(sorted, k);
    SortedSplit(sorted, k);
  }

  lemma SplitMultiset(s: seq<Product>, k: nat)
    requires k <= |s|
    ensures multiset(s[..k]) <= multiset(s)
    ensures multiset(s) - multiset(s[..k]) == multiset(s[k..])
  {
    assert s == s[..k] + s[k..];
  }

  lemma SortedSplit(sorted: seq<Product>, k: nat)
    requires k <= |sorted|
    requires forall i, j :: 0 <= i < j < |sorted| ==> sorted[i].quantity >= sorted[j].quantity
    ensures forall x, y :: x in multiset(sorted[k..]) && y in sorted[..k] ==> x.quantity <= y.quantity
  {
    forall x: Product, y: Product | x in multiset(sorted[k..]) && y in sorted[..k] ensures x.quantity <= y.quantity {
      var a :| 0 <= a < k && sorted[..k][a] == y;
      var b :| 0 <= b < |sorted| - k && sorted[k..][b] == x;
      assert sorted[a] == y && sorted[k + b] == x;
    }
  }

  /** `topProducts`: the five most stocked products, highest first. */
  function TopProducts(ps: seq<Product>): (r: seq<Product>)
    ensures |r| == if |ps| < TopCount then |ps| else TopCount
    ensures forall i, j :: 0 <= i < j < |r| ==> r[i].quantity >= r[j].quantity
    ensures multiset(r) <= multiset(ps)
    ensures NoneLeftAbove(ps, r)
  {
    MostStocked(ps, TopCount)
  }

  /** `stockProducts`: the ten most stocked products, highest first, which
      the pie chart shows. */
  function StockProducts(ps: seq<Product>): (r: seq<Product>)
    ensures |r| == if |ps| < StockChartCount then |ps| else StockChartCount
    ensures forall i, j :: 0 <= i < j < |r| ==> r[i].quantity >= r[j].quantity
    ensures multiset(r) <= multiset(ps)
    ensures NoneLeftAbove(ps, r)
  {
    MostStocked(ps, StockChartCount)
  }

  /** Both lists cut the same sort, so the top five are the first five of
      the stock chart's ten. */
  lemma TopIsPrefixOfStock(ps: seq<Product>)
    ensures |TopProducts(ps)| <= |StockProducts(ps)|
    ensures TopProducts(ps) == StockProducts(ps)[..|TopProducts(ps)|]
  {
  }

  // ---------------------------------------------------------------------------
  // Key figures
  // ---------------------------------------------------------------------------

  /** `totalStock`: Σ quantity. While no quantity is negative, it holds the
      stock of every single product. */
  function TotalStock(ps: seq<Product>): (t: int)
    ensures (forall i :: 0 <= i < |ps| ==> ps[i].quantity >= 0) ==>
      t >= 0 && forall i :: 0 <= i < |ps| ==> ps[i].quantity <= t
    decreases |ps|
  {
    if |ps| == 0 then 0
    else
      assert forall i :: 0 <= i < |ps| - 1 ==> ps[1..][i] == ps[i + 1];
      ps[0].quantity + TotalStock(ps[1..])
  }

  /** `inventoryValue`: Σ price × quantity, in cents. It is never negative
      while no price or quantity is. */
  function InventoryValue(ps: seq<Product>): (v: int)
    ensures (forall i :: 0 <= i < |ps| ==> ps[i].price >= 0 && ps[i].quantity >= 0) ==> v >= 0
    decreases |ps|
  {
    if |ps| == 0 then 0
    else
      assert forall i :: 0 <= i < |ps| - 1 ==> ps[1..][i] == ps[i + 1];
      ps[0].price * ps[0].quantity + InventoryValue(ps[1..])
  }

  function LowStock(): Product -> bool {
    (p: Product) => IsLowStock(p)
  }

  function WellStocked(): Product -> bool {
    (p: Product) => !IsLowStock(p)
  }

  /** The positions of the flagged products. */
  function LowPositions(ps: seq<Product>): set<int> {
    set i | 0 <= i < |ps| && IsLowStock(ps[i])
  }

  /** `lowStock`: how many products are flagged. */
  function LowStockCount(ps: seq<Product>): (n: nat)
    ensures n == |LowPositions(ps)|
    ensures n <= |ps|
    ensures n == 0 <==> forall i :: 0 <= i < |ps| ==> !IsLowStock(ps[i])
    ensures n == |ps| <==> forall i :: 0 <= i < |ps| ==> IsLowStock(ps[i])
  {
    SelectEmpty(ps, LowStock());
    LowPositionsCount(ps);
    |Select(ps, LowStock())|
  }

  /** Filtering keeps one product per flagged position. */
  lemma {:induction false} LowPositionsCount(ps: seq<Product>)
    ensures |Select(ps, LowStock())| == |LowPositions(ps)|
    decreases |ps|
  {
    if |ps| > 0 {
      LowPositionsCount(ps[..|ps| - 1]);
      SelectSnocLength(ps, LowStock());
      LowPositionsSnoc(ps);
    }
  }

  /** Appending a product adds its position exactly when it is flagged. */
  lemma LowPositionsSnoc(ps: seq<Product>)
    requires |ps| > 0
    ensures |LowPositions(ps)| == |LowPositions(ps[..|ps| - 1])| + if IsLowStock(ps[|ps| - 1]) then 1 else 0
  {
    var init := ps[..|ps| - 1];
    var last := |ps| - 1;
    assert forall i :: 0 <= i < |init| ==> init[i] == ps[i];
    assert last !in LowPositions(init);
    if IsLowStock(ps[last]) {
      assert LowPositions(ps) == LowPositions(init) + {last};
    } else {
      assert LowPositions(ps) == LowPositions(init);
    }
  }

  /** The flagged and the unflagged products make up the list. */
  lemma LowStockSplit(ps: seq<Product>)
    ensures LowStockCount(ps) + |Select(ps, WellStocked())| == |ps|
  {
    SelectSplit(ps, LowStock(), WellStocked());
  }

  function HasId(id: int): Product -> bool {
    (p: Product) => p.id == id
  }

  /** A restock of `amount` raises the total stock by `amount` for every
      product with that id. */
  lemma {:induction false} RestockRaisesStock(ps: seq<Product>, id: int, amount: int)
    ensures TotalStock(AddUnits(ps, id, amount)) == TotalStock(ps) + amount * |Select(ps, HasId(id))|
    decreases |ps|
  {
    if |ps| > 0 {
      AddUnitsStock(ps, id, amount);
      RestockRaisesStock(ps[1..], id, amount);
      SelectHead(ps, HasId(id));
      if ps[0].id == id {
        Spread(amount, |Select(ps[1..], HasId(id))|, 1);
      }
    }
  }

  /** The stock of the edited list, split as its head and its tail. */
  lemma AddUnitsStock(ps: seq<Product>, id: int, amount: int)
    requires |ps| > 0
    ensures TotalStock(AddUnits(ps, id, amount))
         == (if ps[0].id == id then ps[0].quantity + amount else ps[0].quantity)
            + TotalStock(AddUnits(ps[1..], id, amount))
  {
    assert AddUnits(ps, id, amount)[1..] == AddUnits(ps[1..], id, amount);
  }

  /** ... and the inventory value by `amount` times their prices. */
  lemma {:induction false} RestockRaisesValue(ps: seq<Product>, id: int, amount: int)
    ensures InventoryValue(AddUnits(ps, id, amount)) == InventoryValue(ps) + amount * PriceSum(Select(ps, HasId(id)))
    decreases |ps|
  {
    if |ps| > 0 {
      RestockRaisesValue(ps[1..], id, amount);
      RestockValueStep(ps, id, amount);
    }
  }

  /** The inductive step of `RestockRaisesValue`, for the head of the list:
      a product with the id adds its price times the amount, any other
      product adds nothing. */
  lemma RestockValueStep(ps: seq<Product>, id: int, amount: int)
    requires |ps| > 0
    requires InventoryValue(AddUnits(ps[1..], id, amount))
          == InventoryValue(ps[1..]) + amount * PriceSum(Select(ps[1..], HasId(id)))
    ensures InventoryValue(AddUnits(ps, id, amount)) == InventoryValue(ps) + amount * PriceSum(Select(ps, HasId(id)))
  {
    if ps[0].id == id {
      RestockValueHit(ps, id, amount);
    } else {
      RestockValueMiss(ps, id, amount);
    }
  }

  lemma RestockValueHit(ps: seq<Product>, id: int, amount: int)
    requires |ps| > 0 && ps[0].id == id
    requires InventoryValue(AddUnits(ps[1..], id, amount))
          == InventoryValue(ps[1..]) + amount * PriceSum(Select(ps[1..], HasId(id)))
    ensures InventoryValue(AddUnits(ps, id, amount)) == InventoryValue(ps) + amount * PriceSum(Select(ps, HasId(id)))
  {
    HeadPrices(ps, id);
    HeadGain(ps, id, amount);
    Scale(amount, PriceSum(Select(ps, HasId(id))), ps[0].price, PriceSum(Select(ps[1..], HasId(id))));
  }

  /** A product with the id at the head of the list heads the sum of the
      restocked prices ... */
  lemma HeadPrices(ps: seq<Product>, id: int)
    requires |ps| > 0 && ps[0].id == id
    ensures PriceSum(Select(ps, HasId(id))) == ps[0].price + PriceSum(Select(ps[1..], HasId(id)))
  {
    SelectHead(ps, HasId(id));
    PriceSumCons(ps[0], Select(ps[1..], HasId(id)));
  }

  /** ... and adds its price times the amount to the tail's gain in value. */
  lemma HeadGain(ps: seq<Product>, id: int, amount: int)
    requires |ps| > 0 && ps[0].id == id
    ensures InventoryValue(AddUnits(ps, id, amount)) - InventoryValue(ps)
         == InventoryValue(AddUnits(ps[1..], id, amount)) - InventoryValue(ps[1..]) + amount * ps[0].price
  {
    var r := AddUnits(ps, id, amount);
    assert r[1..] == AddUnits(ps[1..], id, amount) by {
      AddUnitsTail(ps, id, amount);
    }
    assert InventoryValue(r) == r[0].price * r[0].quantity + InventoryValue(r[1..]);
    assert InventoryValue(ps) == ps[0].price * ps[0].quantity + InventoryValue(ps[1..]);
    RestockedWorth(r[0], ps[0], amount);
  }

  /** The value of one product after `amount` more units. */
  lemma RestockedWorth(after: Product, before: Product, amount: int)
    requires after.price == before.price && after.quantity == before.quantity + amount
    ensures after.price * after.quantity == before.price * before.quantity + amount * before.price
  {
    Scale(before.price, after.quantity, before.quantity, amount);
  }

  lemma RestockValueMiss(ps: seq<Product>, id: int, amount: int)
    requires |ps| > 0 && ps[0].id != id
    requires InventoryValue(AddUnits(ps[1..], id, amount))
          == InventoryValue(ps[1..]) + amount * PriceSum(Select(ps[1..], HasId(id)))
    ensures InventoryValue(AddUnits(ps, id, amount)) == InventoryValue(ps) + amount * PriceSum(Select(ps, HasId(id)))
  {
    assert Select(ps, HasId(id)) == Select(ps[1..], HasId(id)) by {
      SelectHead(ps, HasId(id));
    }
    assert InventoryValue(AddUnits(ps, id, amount))
        == ps[0].price * ps[0].quantity + InventoryValue(AddUnits(ps[1..], id, amount)) by {
      AddUnitsTail(ps, id, amount);
    }
  }

  lemma PriceSumCons(p: Product, ps: seq<Product>)
    ensures PriceSum([p] + ps) == p.price + PriceSum(ps)
  {
    assert ([p] + ps)[1..] == ps;
  }

  lemma AddUnitsTail(ps: seq<Product>, id: int, amount: int)
    requires |ps| > 0
    ensures AddUnits(ps, id, amount)[1..] == AddUnits(ps[1..], id, amount)
    ensures ps[0].id == id ==>
      InventoryValue(AddUnits(ps, id, amount))
        == ps[0].price * (ps[0].quantity + amount) + InventoryValue(AddUnits(ps[1..], id, amount))
    ensures ps[0].id != id ==>
      InventoryValue(AddUnits(ps, id, amount))
        == ps[0].price * ps[0].quantity + InventoryValue(AddUnits(ps[1..], id, amount))
  {
    assert AddUnits(ps, id, amount)[1..] == AddUnits(ps[1..], id, amount);
  }

  /** Σ price. */
  function PriceSum(ps: seq<Product>): int
    decreases |ps|
  {
    if |ps| == 0 then 0 else ps[0].price + PriceSum(ps[1..])
  }

  /** After a delete, the total stock is what the removed products held less. */
  lemma {:induction false} DeleteLowersTotal(ps: seq<Product>, id: int)
    ensures TotalStock(DeleteItem(ps, id, true)) + TotalStock(Select(ps, HasId(id))) == TotalStock(ps)
    decreases |ps|
  {
    if |ps| > 0 {
      DeleteLowersTotal(ps[1..], id);
      if ps[0].id == id {
        assert Select(ps, HasId(id))[1..] == Select(ps[1..], HasId(id));
      } else {
        assert Select(ps, Others(id))[1..] == Select(ps[1..], Others(id));
      }
    }
  }
}

=== FILE: lifecycle.dfy ===
/** The order endpoints taken together: the store invariants every request
    keeps, the order status machine (`pending` to `dispatched` or
    `cancelled`, and nothing out of those two), what a placed order looks
    like to the listings, and the worked scenarios of the stock rules. */
module Lifecycle {
  import opened Shop
  import opened Seqs
  import opened Orders

  /** A request to one of the state-changing order endpoints. */
  datatype Request =
    | Place(who: Principal, lines: seq<Line>)
    | Dispatch(who: Principal, orderId: int)
    | Cancel(who: Principal, orderId: int)

  /** The store after serving one request. */
  function Apply(s: Store, req: Request): (r: Store)
    ensures r.nextOrderId >= s.nextOrderId
    ensures s.orders.Keys <= r.orders.Keys
    ensures r.products.Keys == s.products.Keys
  {
    match req
    case Place(who, lines) => PlaceOrder(s, who, lines).store
    case Dispatch(who, orderId) => DispatchOrder(s, who, orderId).store
    case Cancel(who, orderId) => CancelOrder(s, who, orderId).store
  }

  /** The store after serving the requests one after the other. */
  function Run(s: Store, reqs: seq<Request>): Store
    decreases |reqs|
  {
    if |reqs| == 0 then s else Run(Apply(s, reqs[0]), reqs[1..])
  }

  // ---------------------------------------------------------------------------
  // Invariants
  // ---------------------------------------------------------------------------

  /** No item of a valid store belongs to an order id that is not handed out yet. */
  lemma NoItemsYet(s: Store)
    requires Valid(s)
    ensures ItemsOf(s.items, s.nextOrderId) == []
  {
  }

  /** Placing an order stores it under a fresh id and its items under that id. */
  lemma PlacePreservesValid(s: Store, who: Principal, lines: seq<Line>)
    requires Valid(s)
    ensures Valid(PlaceOrder(s, who, lines).store)
  {
    var r := PlaceOrder(s, who, lines);
    if r.reply.Ok? {
      var t := r.store;
      var id := s.nextOrderId;
      assert id !in s.orders;
      forall i | 0 <= i < |t.items| ensures t.items[i].orderId in t.orders {
        if i < |s.items| {
          assert t.items[i] == t.items[..|s.items|][i] == s.items[i];
        } else {
          var k := i - |s.items|;
          assert t.items[|s.items| + k].orderId == id;
        }
      }
    }
  }

  /** Deducting stock keeps every product under its own id. */
  lemma DebitedKeepsIds(ps: map<int, Product>, its: seq<OrderItem>)
    requires forall pid :: pid in ps ==> ps[pid].id == pid
    ensures forall pid :: pid in Debited(ps, its) ==> Debited(ps, its)[pid].id == pid
  {
  }

  lemma DispatchPreservesValid(s: Store, who: Principal, orderId: int)
    requires Valid(s)
    ensures Valid(DispatchOrder(s, who, orderId).store)
  {
    var r := DispatchOrder(s, who, orderId);
    if Authorized(who, ProductManager) && orderId in s.orders && s.orders[orderId].status == Pending {
      var its := ItemsOf(s.items, orderId);
      if r.reply.Err? {
        var k :| 0 <= k < |its| && r.store.products == Debited(s.products, its[..k]);
        DebitedKeepsIds(s.products, its[..k]);
      }
    }
  }

  lemma CancelPreservesValid(s: Store, who: Principal, orderId: int)
    requires Valid(s)
    ensures Valid(CancelOrder(s, who, orderId).store)
  {
  }

  /** Every request keeps the store valid and every stock non-negative. */
  lemma ApplyPreserves(s: Store, req: Request)
    requires Valid(s) && StockNonNegative(s)
    ensures Valid(Apply(s, req)) && StockNonNegative(Apply(s, req))
  {
    ApplyValid(s, req);
  }

  /** Validity alone is kept by every request, whatever the stock levels
      (`PUT /products/:id` may have written a negative quantity). */
  lemma ApplyValid(s: Store, req: Request)
    requires Valid(s)
    ensures Valid(Apply(s, req))
  {
    match req
    case Place(who, lines) => PlacePreservesValid(s, who, lines);
    case Dispatch(who, orderId) => DispatchPreservesValid(s, who, orderId);
    case Cancel(who, orderId) => CancelPreservesValid(s, who, orderId);
  }

  /** ... and so does any sequence of requests. */
  lemma {:induction false} RunPreserves(s: Store, reqs: seq<Request>)
    requires Valid(s) && StockNonNegative(s)
    ensures Valid(Run(s, reqs)) && StockNonNegative(Run(s, reqs))
    decreases |reqs|
  {
    if |reqs| > 0 {
      ApplyPreserves(s, reqs[0]);
      RunPreserves(Apply(s, reqs[0]), reqs[1..]);
    }
  }

  // ---------------------------------------------------------------------------
  // The status machine
  // ---------------------------------------------------------------------------

  /** One request changes an existing order at most in its status, and only
      from `pending` to `dispatched` or `cancelled`. */
  lemma StatusStep(s: Store, req: Request, id: int)
    requires Valid(s) && id in s.orders
    ensures id in Apply(s, req).orders
    ensures
      var before := s.orders[id];
      var after := Apply(s, req).orders[id];
      && after == before.(status := after.status)
      && (after.status == before.status || (before.status == Pending && after.status in {Dispatched, Cancelled}))
  {
    match req
    case Place(who, lines) =>
      assert s.nextOrderId != id;
    case Dispatch(who, orderId) =>
      DispatchChangesStatus(s, who, orderId);
    case Cancel(who, orderId) =>
  }

  /** What a dispatch does to the orders: nothing, or mark a pending order
      `dispatched`. */
  lemma DispatchChangesStatus(s: Store, who: Principal, orderId: int)
    ensures
      var orders := DispatchOrder(s, who, orderId).store.orders;
      || orders == s.orders
      || (orderId in s.orders && s.orders[orderId].status == Pending
          && orders == s.orders[orderId := s.orders[orderId].(status := Dispatched)])
  {
    var r := DispatchOrder(s, who, orderId);
    if r.reply.Ok? {
      assert orderId in s.orders && s.orders[orderId].status == Pending;
    }
  }

  /** `dispatched` and `cancelled` are terminal: no sequence of requests
      changes such an order in any way. */
  lemma {:induction false} TerminalIsFinal(s: Store, reqs: seq<Request>, id: int)
    requires Valid(s)
    requires id in s.orders && s.orders[id].status != Pending
    ensures id in Run(s, reqs).orders && Run(s, reqs).orders[id] == s.orders[id]
    decreases |reqs|
  {
    if |reqs| > 0 {
      var t := Apply(s, reqs[0]);
      StatusStep(s, reqs[0], id);
      ApplyValid(s, reqs[0]);
      TerminalIsFinal(t, reqs[1..], id);
    }
  }

  // ---------------------------------------------------------------------------
  // A placed order, as the listings show it
  // ---------------------------------------------------------------------------

  /** Appending items that all belong to `id` to items none of which does:
      the items of `id` are exactly the appended ones. */
  lemma ItemsOfAppendNew(items: seq<OrderItem>, created: seq<OrderItem>, id: int)
    requires forall i :: 0 <= i < |items| ==> items[i].orderId != id
    requires forall i :: 0 <= i < |created| ==> created[i].orderId == id
    ensures ItemsOf(items + created, id) == created
  {
    SelectAppend(items, created, BelongsTo(id));
    SelectNone(items, BelongsTo(id));
    SelectAll(created, BelongsTo(id));
  }

  /** The items a successful placement appends, and where. */
  lemma PlacedAppends(s: Store, who: Principal, lines: seq<Line>)
    requires PlaceOrder(s, who, lines).reply.Ok?
    ensures forall i :: 0 <= i < |lines| ==> lines[i].productId in s.products
    ensures PlaceOrder(s, who, lines).store.items == s.items + Snapshot(s.products, s.nextOrderId, lines)
  {
    var t := PlaceOrder(s, who, lines).store;
    assert forall i :: 0 <= i < |lines| ==> InStock(s.products, lines[i]);
    var created := Snapshot(s.products, s.nextOrderId, lines);
    assert t.items[..|s.items|] == s.items;
    assert t.items[|s.items|..] == created;
    assert t.items == t.items[..|s.items|] + t.items[|s.items|..];
  }

  /** The snapshot items appended under a fresh id are that id's items;
      they give back the lines and add up to the lines' total. */
  lemma SnapshotItems(s: Store, lines: seq<Line>, items: seq<OrderItem>)
    requires Valid(s)
    requires forall i :: 0 <= i < |lines| ==> lines[i].productId in s.products
    requires items == s.items + Snapshot(s.products, s.nextOrderId, lines)
    ensures
      var its := ItemsOf(items, s.nextOrderId);
      && its == Snapshot(s.products, s.nextOrderId, lines)
      && AsLines(its) == lines
      && ItemsTotal(its) == LinesTotal(s.products, lines)
  {
    var id := s.nextOrderId;
    var created := Snapshot(s.products, id, lines);
    assert id !in s.orders;
    assert forall i :: 0 <= i < |s.items| ==> s.items[i].orderId != id;
    ItemsOfAppendNew(s.items, created, id);
    SnapshotTotal(s.products, id, lines);
  }

  /** After a successful placement the new order's items are exactly one
      item per request line, with the captured prices; they give back the
      request lines, and their captured prices add up to the order total. */
  lemma PlacedItems(s: Store, who: Principal, lines: seq<Line>)
    requires Valid(s) && PlaceOrder(s, who, lines).reply.Ok?
    ensures forall i :: 0 <= i < |lines| ==> lines[i].productId in s.products
    ensures
      var t := PlaceOrder(s, who, lines).store;
      var its := ItemsOf(t.items, s.nextOrderId);
      && its == Snapshot(s.products, s.nextOrderId, lines)
      && AsLines(its) == lines
      && ItemsTotal(its) == t.orders[s.nextOrderId].totalPrice
  {
    var t := PlaceOrder(s, who, lines).store;
    assert && (forall i :: 0 <= i < |lines| ==> lines[i].productId in s.products)
           && t.items == s.items + Snapshot(s.products, s.nextOrderId, lines)
           && t.orders[s.nextOrderId].totalPrice == LinesTotal(s.products, lines) by {
      PlacedAppends(s, who, lines);
    }
    SnapshotItems(s, lines, t.items);
  }

  /** A placed order heads the product manager's listing of all orders, as
      a pending order of the customer with its items joined to their
      products. */
  lemma PlacedIsNewest(s: Store, who: Principal, lines: seq<Line>, manager: Principal)
    requires Valid(s) && PlaceOrder(s, who, lines).reply.Ok?
    requires Authorized(manager, ProductManager)
    ensures
      var t := PlaceOrder(s, who, lines).store;
      var id := s.nextOrderId;
      var listed := ListAllOrders(t, manager);
      && listed.Ok? && |listed.value| > 0
      && listed.value[0] == OrderView(Order(id, who.id, Pending, LinesTotal(s.products, lines)),
                                      Join(s.products, Snapshot(s.products, id, lines)))
  {
    var t := PlaceOrder(s, who, lines).store;
    var id := s.nextOrderId;
    PlacedItems(s, who, lines);
    assert Admitted(t, id, None);
    assert OrderIds(t, t.nextOrderId, None)[0] == id;
  }

  /** Placement only checks stock: the same request can be placed again
      straight away, so orders can be placed for more than is in stock. */
  lemma PlacementDoesNotReserve(s: Store, who: Principal, lines: seq<Line>)
    requires PlaceOrder(s, who, lines).reply.Ok?
    ensures PlaceOrder(PlaceOrder(s, who, lines).store, who, lines).reply.Ok?
  {
  }

  // ---------------------------------------------------------------------------
  // Worked scenarios
  // ---------------------------------------------------------------------------

  const Alice := Principal(1, Customer)
  const Manager := Principal(2, ProductManager)
  const Widget := Product(7, "Widget", "Tools", 250, 5)

  /** The store with one product of stock 5 and no orders. */
  function Shelf(): (s: Store)
    ensures Valid(s) && StockNonNegative(s)
  {
    Store(Stocked(5), map[], [], 0)
  }

  /** The shelf with the stock of the widget set to `quantity`. */
  function Stocked(quantity: int): map<int, Product> {
    map[7 := Widget.(quantity := quantity)]
  }

  /** Alice's order 0 for 3 widgets, pending. */
  function OnePending(): Store {
    Store(Stocked(5), map[0 := Order(0, 1, Pending, 750)], [OrderItem(0, 7, 3, 250)], 1)
  }

  /** Alice's orders 0 and 1, 3 widgets each, both pending. */
  function TwoPending(): Store {
    Store(Stocked(5), map[0 := Order(0, 1, Pending, 750), 1 := Order(1, 1, Pending, 750)],
          [OrderItem(0, 7, 3, 250), OrderItem(1, 7, 3, 250)], 2)
  }

  /** Alice's order 0 with two lines of 3 widgets, pending. */
  function DoublePending(): Store {
    Store(Stocked(5), map[0 := Order(0, 1, Pending, 1500)],
          [OrderItem(0, 7, 3, 250), OrderItem(0, 7, 3, 250)], 1)
  }

  lemma PlaceOnShelf()
    ensures PlaceOrder(Shelf(), Alice, [Line(7, 3)]) == Step(OnePending(), Ok(0))
  {
    assert InStock(Shelf().products, Line(7, 3));
    PlacedAppends(Shelf(), Alice, [Line(7, 3)]);
    assert Snapshot(Shelf().products, 0, [Line(7, 3)]) == [OrderItem(0, 7, 3, 250)];
  }

  lemma PlaceAgain()
    ensures PlaceOrder(OnePending(), Alice, [Line(7, 3)]) == Step(TwoPending(), Ok(1))
  {
    assert InStock(OnePending().products, Line(7, 3));
    PlacedAppends(OnePending(), Alice, [Line(7, 3)]);
    assert Snapshot(OnePending().products, 1, [Line(7, 3)]) == [OrderItem(1, 7, 3, 250)];
  }

  lemma PlaceDouble()
    ensures PlaceOrder(Shelf(), Alice, [Line(7, 3), Line(7, 3)]) == Step(DoublePending(), Ok(0))
  {
    var lines := [Line(7, 3), Line(7, 3)];
    assert InStock(Shelf().products, lines[0]) && InStock(Shelf().products, lines[1]);
    PlacedAppends(Shelf(), Alice, lines);
    DoubleLines();
  }

  lemma DoubleLines()
    ensures
      var lines := [Line(7, 3), Line(7, 3)];
      && Snapshot(Stocked(5), 0, lines) == [OrderItem(0, 7, 3, 250), OrderItem(0, 7, 3, 250)]
      && LinesTotal(Stocked(5), lines) == 1500
  {
    var lines := [Line(7, 3), Line(7, 3)];
    assert lines[..1] == [Line(7, 3)];
  }

  /** Deducting 3 widgets from a stock of `q` when `q` is at least 3. */
  lemma DeductThree(q: int)
    requires q >= 3
    ensures Deduct(Stocked(q), [OrderItem(0, 7, 3, 250)]) == Completed(Stocked(q - 3))
  {
    var its := [OrderItem(0, 7, 3, 250)];
    assert Deduct(AfterFirst(Stocked(q), its), its[1..]) == Completed(Stocked(q - 3));
  }

  /** Placing 3 of a stock of 5 records a pending order of 3 × 2.50 and
      leaves the stock at 5; dispatching it brings the stock to 2. */
  lemma PlaceThenDispatch()
    ensures
      var placed := PlaceOrder(Shelf(), Alice, [Line(7, 3)]);
      var sent := DispatchOrder(placed.store, Manager, 0);
      && placed.reply == Ok(0)
      && placed.store.products[7].quantity == 5
      && placed.store.orders[0] == Order(0, 1, Pending, 750)
      && sent.reply == Ok(())
      && sent.store.products[7].quantity == 2
      && sent.store.orders[0].status == Dispatched
  {
    PlaceOnShelf();
    var s := OnePending();
    assert ItemsOf(s.items, 0) == [OrderItem(0, 7, 3, 250)];
    DeductThree(5);
  }

  /** Two orders of 3 against a stock of 5 are both accepted; the first
      dispatch succeeds and the second fails with the order still pending
      and the stock at 2. */
  lemma Oversell()
    ensures
      var first := PlaceOrder(Shelf(), Alice, [Line(7, 3)]);
      var second := PlaceOrder(first.store, Alice, [Line(7, 3)]);
      var sent := DispatchOrder(second.store, Manager, 0);
      var refused := DispatchOrder(sent.store, Manager, 1);
      && first.reply == Ok(0) && second.reply == Ok(1)
      && sent.reply == Ok(())
      && refused.reply == Err(InsufficientStock(7))
      && refused.store.products[7].quantity == 2
      && refused.store.orders[1].status == Pending
  {
    PlaceOnShelf();
    PlaceAgain();
    DispatchFirstOfTwo();
    RefuseSecondOfTwo();
  }

  /** The first of the two pending orders is dispatched. */
  lemma DispatchFirstOfTwo()
    ensures DispatchOrder(TwoPending(), Manager, 0)
         == Step(TwoPending().(products := Stocked(2), orders := TwoPending().orders[0 := Order(0, 1, Dispatched, 750)]), Ok(()))
  {
    var s := TwoPending();
    assert ItemsOf(s.items, 0) == [OrderItem(0, 7, 3, 250)];
    DeductThree(5);
  }

  /** The second one then finds only 2 widgets left. */
  lemma RefuseSecondOfTwo()
    ensures
      var s := TwoPending().(products := Stocked(2), orders := TwoPending().orders[0 := Order(0, 1, Dispatched, 750)]);
      DispatchOrder(s, Manager, 1) == Step(s, Err(InsufficientStock(7)))
  {
    var s := TwoPending().(products := Stocked(2), orders := TwoPending().orders[0 := Order(0, 1, Dispatched, 750)]);
    var its := [OrderItem(1, 7, 3, 250)];
    assert ItemsOf(s.items, 1) == its;
    assert Deduct(s.products, its) == Stopped(s.products, 0, InsufficientStock(7));
  }

  /** One order asking twice for 3 of a stock of 5 passes placement, since
      each line is checked on its own. Its dispatch deducts the first item,
      fails on the second and leaves the stock at 2 with the order pending;
      cancelling it then gives nothing back. */
  lemma PartialDispatch()
    ensures
      var placed := PlaceOrder(Shelf(), Alice, [Line(7, 3), Line(7, 3)]);
      var tried := DispatchOrder(placed.store, Manager, 0);
      var dropped := CancelOrder(tried.store, Manager, 0);
      && placed.reply == Ok(0)
      && placed.store.orders[0].totalPrice == 1500
      && tried.reply == Err(InsufficientStock(7))
      && tried.store.products[7].quantity == 2
      && tried.store.orders[0].status == Pending
      && dropped.reply == Ok(())
      && dropped.store.products[7].quantity == 2
  {
    PlaceDouble();
    DispatchDouble();
  }

  /** The double order's dispatch stops at its second item after writing
      the first deduction. */
  lemma DispatchDouble()
    ensures DispatchOrder(DoublePending(), Manager, 0)
         == Step(DoublePending().(products := Stocked(2)), Err(InsufficientStock(7)))
  {
    var s := DoublePending();
    var it := OrderItem(0, 7, 3, 250);
    assert ItemsOf(s.items, 0) == [it, it];
    assert Deduct(s.products, [it, it]) == Stopped(Stocked(2), 1, InsufficientStock(7)) by {
      assert AfterFirst(Stocked(5), [it, it]) == Stocked(2);
      assert Deduct(Stocked(2), [it]) == Stopped(Stocked(2), 0, InsufficientStock(7));
    }
  }
}

=== FILE: orders.dfy ===
/** The order endpoints of backend/server.js as pure transitions over the
    store: `POST /orders` (place), `GET /orders` and `GET /orders/all`
    (list), `PATCH /orders/:id/dispatch` and `PATCH /orders/:id/cancel`. */
module Orders {
  import opened Shop
  import opened Seqs

  // ---------------------------------------------------------------------------
  // POST /orders
  // ---------------------------------------------------------------------------

  /** The placement check of one line: the product exists and its stock is
      at least the requested quantity. Each line is checked on its own
      against the current stock, not against what earlier lines ask for. */
  predicate InStock(products: map<int, Product>, l: Line) {
    l.productId in products && products[l.productId].quantity >= l.quantity
  }

  /** Σ product.price × line.quantity over the lines (a line whose product is
      missing contributes nothing). */
  function LinesTotal(products: map<int, Product>, lines: seq<Line>): int
    decreases |lines|
  {
    if |lines| == 0 then 0
    else
      var l := lines[|lines| - 1];
      LinesTotal(products, lines[..|lines| - 1])
        + (if l.productId in products then products[l.productId].price * l.quantity else 0)
  }

  /** Σ item.price × item.quantity over order items, i.e. from the prices
      captured in the items. */
  function ItemsTotal(its: seq<OrderItem>): int
    decreases |its|
  {
    if |its| == 0 then 0
    else ItemsTotal(its[..|its| - 1]) + its[|its| - 1].price * its[|its| - 1].quantity
  }

  /** The validation loop of `POST /orders`: walks the lines in order,
      stops at the first line that fails the stock check, and otherwise
      accumulates the total. */
  function CheckStock(products: map<int, Product>, lines: seq<Line>): (r: Reply<int>)
    ensures r.Ok? <==> forall i :: 0 <= i < |lines| ==> InStock(products, lines[i])
    ensures r.Ok? ==> r.value == LinesTotal(products, lines)
    ensures r.Err? ==>
      exists k :: 0 <= k < |lines| && !InStock(products, lines[k])
        && (forall j :: 0 <= j < k ==> InStock(products, lines[j]))
        && r.error == OutOfStock(lines[k].productId)
    decreases |lines|
  {
    if |lines| == 0 then Ok(0)
    else
      var init := lines[..|lines| - 1];
      var l := lines[|lines| - 1];
      assert forall j :: 0 <= j < |init| ==> init[j] == lines[j];
      match CheckStock(products, init)
      case Err(e) => Err(e)
      case Ok(total) =>
        if InStock(products, l) then Ok(total + products[l.productId].price * l.quantity)
        else Err(OutOfStock(l.productId))
  }

  /** The `order_items` rows the creation loop writes for order `orderId`:
      one per line, in order, with the product's current price. */
  function Snapshot(products: map<int, Product>, orderId: int, lines: seq<Line>): (r: seq<OrderItem>)
    requires forall i :: 0 <= i < |lines| ==> lines[i].productId in products
    ensures |r| == |lines|
    ensures forall i :: 0 <= i < |lines| ==>
      var p := products[lines[i].productId];
      r[i] == OrderItem(orderId, p.id, lines[i].quantity, p.price)
  {
    seq(|lines|, i requires 0 <= i < |lines| =>
      var p := products[lines[i].productId];
      OrderItem(orderId, p.id, lines[i].quantity, p.price))
  }

  /** The total computed during validation is the total of the captured
      item prices: Σ product.price × quantity == Σ item.price × item.quantity. */
  lemma {:induction false} SnapshotTotal(products: map<int, Product>, orderId: int, lines: seq<Line>)
    requires forall i :: 0 <= i < |lines| ==> lines[i].productId in products
    ensures ItemsTotal(Snapshot(products, orderId, lines)) == LinesTotal(products, lines)
    decreases |lines|
  {
    if |lines| > 0 {
      var init := lines[..|lines| - 1];
      SnapshotTotal(products, orderId, init);
      var its := Snapshot(products, orderId, lines);
      assert its[..|its| - 1] == Snapshot(products, orderId, init);
    }
  }

  /** `POST /orders`: a customer-only route. Any line failing the stock check
      rejects the whole request before anything is written; otherwise one
      `pending` order with the computed total and one item per line are
      created. Stock is checked, never deducted. */
  function PlaceOrder(s: Store, who: Principal, lines: seq<Line>): (r: Step<int>)
    ensures r.store.products == s.products
    ensures r.reply.Ok? <==>
      Authorized(who, Customer) && forall i :: 0 <= i < |lines| ==> InStock(s.products, lines[i])
    ensures !Authorized(who, Customer) ==> r == Step(s, Err(AccessDenied))
    ensures r.reply.Err? ==> r.store == s
    ensures Authorized(who, Customer) && r.reply.Err? ==>
      exists k :: 0 <= k < |lines| && !InStock(s.products, lines[k])
        && (forall j :: 0 <= j < k ==> InStock(s.products, lines[j]))
        && r.reply.error == OutOfStock(lines[k].productId)
    ensures r.reply.Ok? ==>
      var id := s.nextOrderId;
      && r.reply.value == id
      && r.store.nextOrderId == id + 1
      && r.store.orders == s.orders[id := Order(id, who.id, Pending, LinesTotal(s.products, lines))]
      && |r.store.items| == |s.items| + |lines|
      && r.store.items[..|s.items|] == s.items
      && (forall i :: 0 <= i < |lines| ==>
            var p := s.products[lines[i].productId];
            r.store.items[|s.items| + i] == OrderItem(id, p.id, lines[i].quantity, p.price))
  {
    if !Authorized(who, Customer) then Step(s, Err(AccessDenied))
    else
      match CheckStock(s.products, lines)
      case Err(e) => Step(s, Err(e))
      case Ok(total) =>
        var id := s.nextOrderId;
        var order := Order(id, who.id, Pending, total);
        var created := Snapshot(s.products, id, lines);
        assert (s.items + created)[..|s.items|] == s.items;
        Step(s.(orders := s.orders[id := order], items := s.items + created, nextOrderId := id + 1), Ok(id))
  }

  // ---------------------------------------------------------------------------
  // The items of an order
  // ---------------------------------------------------------------------------

  function BelongsTo(orderId: int): OrderItem -> bool {
    (it: OrderItem) => it.orderId == orderId
  }

  /** `OrderItem.findAll({ where: { order_id } })`, in insertion order. */
  function ItemsOf(items: seq<OrderItem>, orderId: int): (r: seq<OrderItem>)
    ensures forall it :: it in r <==> it in items && it.orderId == orderId
    ensures CountsKept(r, items, BelongsTo(orderId))
    ensures IsSubsequence(r, items)
  {
    SelectCounts(items, BelongsTo(orderId));
    Select(items, BelongsTo(orderId))
  }

  /** The (product, quantity) pairs of items, the shape of a request line. */
  function AsLines(its: seq<OrderItem>): (r: seq<Line>)
    ensures |r| == |its|
    ensures forall i :: 0 <= i < |its| ==> r[i] == Line(its[i].productId, its[i].quantity)
  {
    seq(|its|, i requires 0 <= i < |its| => Line(its[i].productId, its[i].quantity))
  }

  // ---------------------------------------------------------------------------
  // PATCH /orders/:id/dispatch
  // ---------------------------------------------------------------------------

  /** Σ of the quantities that the items in `its` request of product `pid`. */
  function SumQty(its: seq<OrderItem>, pid: int): int
    decreases |its|
  {
    if |its| == 0 then 0
    else (if its[0].productId == pid then its[0].quantity else 0) + SumQty(its[1..], pid)
  }

  /** The products after every item of `its` has been deducted from its
      product's stock; nothing else about any product changes. */
  function Debited(ps: map<int, Product>, its: seq<OrderItem>): map<int, Product> {
    map pid | pid in ps :: ps[pid].(quantity := ps[pid].quantity - SumQty(its, pid))
  }

  /** The dispatch loop's re-check of item `j`, made after the items before
      it have been deducted: the product still exists and has enough stock. */
  predicate PassesAt(ps: map<int, Product>, its: seq<OrderItem>, j: int)
    requires 0 <= j < |its|
  {
    var pid := its[j].productId;
    pid in ps && ps[pid].quantity - SumQty(its[..j], pid) >= its[j].quantity
  }

  /** The deduction loop stopped at item `k`: every earlier item passed and
      is deducted in `after`, item `k` failed, and `error` says why (too
      little stock, or a 500 for a product that no longer exists). */
  predicate FailedAt(ps: map<int, Product>, its: seq<OrderItem>, k: int, after: map<int, Product>, error: ShopError) {
    && 0 <= k < |its|
    && (forall j :: 0 <= j < k ==> PassesAt(ps, its, j))
    && !PassesAt(ps, its, k)
    && after == Debited(ps, its[..k])
    && error == (if its[k].productId in ps then InsufficientStock(its[k].productId) else ServerError)
  }

  /** How the deduction loop ended: every item deducted, or stopped at item
      `at` with the deductions of the items before it already written. */
  datatype Deduction =
    | Completed(products: map<int, Product>)
    | Stopped(products: map<int, Product>, at: nat, error: ShopError)

  lemma PrefixStep(its: seq<OrderItem>, n: nat)
    requires 1 <= n <= |its|
    ensures its[..n][0] == its[0]
    ensures its[..n][1..] == its[1..][..n - 1]
  {
  }

  /** The stock after the first item of `its` has been deducted. */
  function AfterFirst(ps: map<int, Product>, its: seq<OrderItem>): map<int, Product>
    requires |its| > 0 && its[0].productId in ps
  {
    var pid := its[0].productId;
    ps[pid := ps[pid].(quantity := ps[pid].quantity - its[0].quantity)]
  }

  /** One turn of the deduction loop, seen from the remaining items: the
      re-check of a later item against the updated stock is its re-check in
      the whole list against the original stock. */
  lemma PassesShift(ps: map<int, Product>, its: seq<OrderItem>, j: nat)
    requires 1 <= j < |its| && its[0].productId in ps
    ensures PassesAt(AfterFirst(ps, its), its[1..], j - 1) <==> PassesAt(ps, its, j)
  {
    PrefixStep(its, j);
  }

  /** Likewise, the deductions of a prefix of the remaining items from the
      updated stock are those of the longer prefix from the original stock. */
  lemma DebitedShift(ps: map<int, Product>, its: seq<OrderItem>, n: nat)
    requires 1 <= n <= |its| && its[0].productId in ps
    ensures Debited(AfterFirst(ps, its), its[1..][..n - 1]) == Debited(ps, its[..n])
  {
    PrefixStep(its, n);
  }

  /** When the remaining items all pass against the updated stock, the whole
      list passes against the original stock and ends at its full debit. */
  lemma {:induction false} LiftCompleted(ps: map<int, Product>, its: seq<OrderItem>, qs: map<int, Product>)
    requires |its| > 0 && its[0].productId in ps && PassesAt(ps, its, 0)
    requires forall j :: 0 <= j < |its| - 1 ==> PassesAt(AfterFirst(ps, its), its[1..], j)
    requires qs == Debited(AfterFirst(ps, its), its[1..])
    ensures forall j :: 0 <= j < |its| ==> PassesAt(ps, its, j)
    ensures qs == Debited(ps, its)
  {
    forall j | 1 <= j < |its| ensures PassesAt(ps, its, j) {
      PassesShift(ps, its, j);
    }
    DebitedShift(ps, its, |its|);
    assert its[1..][..|its| - 1] == its[1..] && its[..|its|] == its;
  }

  /** When the remaining items stop at `k` against the updated stock, the
      whole list stops at `k + 1` against the original stock. */
  lemma {:induction false} LiftStopped(ps: map<int, Product>, its: seq<OrderItem>, qs: map<int, Product>, k: nat)
    requires |its| > 0 && its[0].productId in ps && PassesAt(ps, its, 0)
    requires k < |its| - 1
    requires forall j :: 0 <= j < k ==> PassesAt(AfterFirst(ps, its), its[1..], j)
    requires !PassesAt(AfterFirst(ps, its), its[1..], k)
    requires qs == Debited(AfterFirst(ps, its), its[1..][..k])
    ensures forall j :: 0 <= j <= k ==> PassesAt(ps, its, j)
    ensures !PassesAt(ps, its, k + 1)
    ensures qs == Debited(ps, its[..k + 1])
  {
    forall j | 1 <= j <= k ensures PassesAt(ps, its, j) {
      PassesShift(ps, its, j);
    }
    PassesShift(ps, its, k + 1);
    DebitedShift(ps, its, k + 1);
  }

  /** The deduction loop of the dispatch handler: for each item, re-read the
      product; a missing product throws (the handler answers 500), too little
      stock answers "Insufficient stock"; otherwise write the lowered stock
      and go on. Nothing undoes the writes made before a failure. */
  function Deduct(ps: map<int, Product>, its: seq<OrderItem>): (r: Deduction)
    ensures r.products.Keys == ps.Keys
    ensures r.Completed? <==> forall j :: 0 <= j < |its| ==> PassesAt(ps, its, j)
    ensures r.Completed? ==> r.products == Debited(ps, its)
    ensures r.Stopped? ==> FailedAt(ps, its, r.at, r.products, r.error)
    ensures forall pid :: pid in ps && ps[pid].quantity >= 0 ==> r.products[pid].quantity >= 0
    decreases |its|
  {
    if |its| == 0 then
      assert ps == Debited(ps, its);
      Completed(ps)
    else
      var pid := its[0].productId;
      assert its[..0] == [];
      if pid !in ps then
        assert ps == Debited(ps, its[..0]) && !PassesAt(ps, its, 0);
        Stopped(ps, 0, ServerError)
      else if ps[pid].quantity < its[0].quantity then
        assert ps == Debited(ps, its[..0]) && !PassesAt(ps, its, 0);
        Stopped(ps, 0, InsufficientStock(pid))
      else
        var ps' := AfterFirst(ps, its);
        assert PassesAt(ps, its, 0);
        match Deduct(ps', its[1..])
        case Completed(qs) =>
          LiftCompleted(ps, its, qs);
          Completed(qs)
        case Stopped(qs, k, e) =>
          LiftStopped(ps, its, qs, k);
          Stopped(qs, k + 1, e)
  }

  /** `PATCH /orders/:id/dispatch`: a product-manager route. An unknown order
      is NotFound and a non-pending one AlreadyProcessed, both without any
      change. A pending order's items are deducted one by one; if all pass,
      the order becomes `dispatched`. If item k fails, the order stays
      pending and the deductions of items 0..k-1 remain. */
  function DispatchOrder(s: Store, who: Principal, orderId: int): (r: Step<()>)
    ensures !Authorized(who, ProductManager) ==> r == Step(s, Err(AccessDenied))
    ensures Authorized(who, ProductManager) && orderId !in s.orders ==> r == Step(s, Err(NotFound))
    ensures Authorized(who, ProductManager) && orderId in s.orders && s.orders[orderId].status != Pending ==>
      r == Step(s, Err(AlreadyProcessed))
    ensures r.store.items == s.items && r.store.nextOrderId == s.nextOrderId
    ensures r.store.products.Keys == s.products.Keys
    ensures r.reply.Ok? <==>
      && Authorized(who, ProductManager) && orderId in s.orders && s.orders[orderId].status == Pending
      && var its := ItemsOf(s.items, orderId);
         forall j :: 0 <= j < |its| ==> PassesAt(s.products, its, j)
    ensures r.reply.Ok? ==>
      && r.store.orders == s.orders[orderId := s.orders[orderId].(status := Dispatched)]
      && var its := ItemsOf(s.items, orderId);
         forall pid :: pid in s.products ==>
           r.store.products[pid] == s.products[pid].(quantity := s.products[pid].quantity - SumQty(its, pid))
    ensures r.reply.Err? ==> r.store.orders == s.orders
    ensures r.reply.Err? && orderId in s.orders && s.orders[orderId].status == Pending && Authorized(who, ProductManager) ==>
      var its := ItemsOf(s.items, orderId);
      exists k :: FailedAt(s.products, its, k, r.store.products, r.reply.error)
    ensures StockNonNegative(s) ==> StockNonNegative(r.store)
  {
    if !Authorized(who, ProductManager) then Step(s, Err(AccessDenied))
    else if orderId !in s.orders then Step(s, Err(NotFound))
    else if s.orders[orderId].status != Pending then Step(s, Err(AlreadyProcessed))
    else
      var its := ItemsOf(s.items, orderId);
      match Deduct(s.products, its)
      case Completed(ps) =>
        Step(s.(products := ps, orders := s.orders[orderId := s.orders[orderId].(status := Dispatched)]), Ok(()))
      case Stopped(ps, k, e) =>
        assert FailedAt(s.products, its, k, ps, e);
        Step(s.(products := ps), Err(e))
  }

  // ---------------------------------------------------------------------------
  // PATCH /orders/:id/cancel
  // ---------------------------------------------------------------------------

  /** `PATCH /orders/:id/cancel`: a product-manager route with the same
      NotFound / AlreadyProcessed guards as dispatch; a pending order becomes
      `cancelled`. Stock was never deducted, so none is restored. */
  function CancelOrder(s: Store, who: Principal, orderId: int): (r: Step<()>)
    ensures r.store.products == s.products && r.store.items == s.items
    ensures r.store.nextOrderId == s.nextOrderId
    ensures !Authorized(who, ProductManager) ==> r == Step(s, Err(AccessDenied))
    ensures Authorized(who, ProductManager) && orderId !in s.orders ==> r == Step(s, Err(NotFound))
    ensures Authorized(who, ProductManager) && orderId in s.orders && s.orders[orderId].status != Pending ==>
      r == Step(s, Err(AlreadyProcessed))
    ensures r.reply.Ok? <==>
      Authorized(who, ProductManager) && orderId in s.orders && s.orders[orderId].status == Pending
    ensures r.reply.Ok? ==> r.store.orders == s.orders[orderId := s.orders[orderId].(status := Cancelled)]
  {
    if !Authorized(who, ProductManager) then Step(s, Err(AccessDenied))
    else if orderId !in s.orders then Step(s, Err(NotFound))
    else if s.orders[orderId].status != Pending then Step(s, Err(AlreadyProcessed))
    else Step(s.(orders := s.orders[orderId := s.orders[orderId].(status := Cancelled)]), Ok(()))
  }

  // ---------------------------------------------------------------------------
  // GET /orders and GET /orders/all
  // ---------------------------------------------------------------------------

  /** An item joined with its product (`include: Product`); the join yields
      no product when the product row is gone. */
  datatype ItemView = ItemView(item: OrderItem, product: Option<Product>)

  datatype OrderView = OrderView(order: Order, items: seq<ItemView>)

  function Join(products: map<int, Product>, its: seq<OrderItem>): (r: seq<ItemView>)
    ensures |r| == |its|
    ensures forall i :: 0 <= i < |its| ==> r[i].item == its[i]
    ensures forall i :: 0 <= i < |its| ==>
      r[i].product == if its[i].productId in products then Some(products[its[i].productId]) else None
  {
    seq(|its|, i requires 0 <= i < |its| =>
      ItemView(its[i], if its[i].productId in products then Some(products[its[i].productId]) else None))
  }

  function ViewOf(s: Store, orderId: int): OrderView
    requires orderId in s.orders
  {
    OrderView(s.orders[orderId], Join(s.products, ItemsOf(s.items, orderId)))
  }

  /** The listing queries' filter: a stored order (of `owner` only, when
      given). */
  predicate Admitted(s: Store, id: int, owner: Option<int>) {
    id in s.orders && s.orders[id].id == id && (owner.None? || s.orders[id].customerId == owner.value)
  }

  /** The ids of the admitted orders below `n`, in descending order. Ids are
      handed out in creation order, so this is the `created_at DESC` order of
      the listing queries with ties between equal timestamps broken by id;
      the queries themselves leave the order of such ties open. */
  function OrderIds(s: Store, n: nat, owner: Option<int>): (r: seq<int>)
    ensures forall i :: 0 <= i < |r| ==> 0 <= r[i] < n && Admitted(s, r[i], owner)
    ensures forall i, j :: 0 <= i < j < |r| ==> r[i] > r[j]
    decreases n
  {
    if n == 0 then []
    else if Admitted(s, n - 1, owner) then [n - 1] + OrderIds(s, n - 1, owner)
    else OrderIds(s, n - 1, owner)
  }

  /** Every admitted order below `n` is among the ids. */
  lemma {:induction false} OrderIdsComplete(s: Store, n: nat, owner: Option<int>, id: int)
    requires 0 <= id < n && Admitted(s, id, owner)
    ensures id in OrderIds(s, n, owner)
    decreases n
  {
    if id < n - 1 {
      OrderIdsComplete(s, n - 1, owner, id);
    }
  }

  /** The admitted orders below `n`, newest first, each with its items and
      their products. */
  function Listing(s: Store, n: nat, owner: Option<int>): (r: seq<OrderView>)
    ensures forall i :: 0 <= i < |r| ==>
      var id := r[i].order.id;
      && id in s.orders && 0 <= id < n && r[i] == ViewOf(s, id)
      && (owner.Some? ==> r[i].order.customerId == owner.value)
    ensures forall i, j :: 0 <= i < j < |r| ==> r[i].order.id > r[j].order.id
  {
    var ids := OrderIds(s, n, owner);
    seq(|ids|, i requires 0 <= i < |ids| => ViewOf(s, ids[i]))
  }

  /** Every stored order with id below `n` that the listing's filter admits
      is listed. */
  lemma ListingComplete(s: Store, n: nat, owner: Option<int>, id: int)
    requires Valid(s)
    requires 0 <= id < n && id in s.orders && (owner.None? || s.orders[id].customerId == owner.value)
    ensures exists i :: 0 <= i < |Listing(s, n, owner)| && Listing(s, n, owner)[i].order.id == id
  {
    OrderIdsComplete(s, n, owner, id);
    var ids := OrderIds(s, n, owner);
    var i :| 0 <= i < |ids| && ids[i] == id;
    assert Listing(s, n, owner)[i] == ViewOf(s, id);
  }

  /** Every item of every listed order has its product. */
  predicate AllJoined(vs: seq<OrderView>) {
    forall i, j :: 0 <= i < |vs| && 0 <= j < |vs[i].items| ==> vs[i].items[j].product.Some?
  }

  /** `GET /orders`: a customer's own orders, newest first, with their items
      and products. The handler reads `Product.image` of every item, which
      throws (500) when an item's product has been deleted. */
  function ListOrders(s: Store, who: Principal): (r: Reply<seq<OrderView>>)
    ensures !Authorized(who, Customer) ==> r == Err(AccessDenied)
    ensures Authorized(who, Customer) ==>
      var vs := Listing(s, s.nextOrderId, Some(who.id));
      r == if AllJoined(vs) then Ok(vs) else Err(ServerError)
    ensures r.Ok? ==> forall i :: 0 <= i < |r.value| ==>
      r.value[i].order.customerId == who.id && r.value[i].order.id in s.orders
  {
    if !Authorized(who, Customer) then Err(AccessDenied)
    else
      var vs := Listing(s, s.nextOrderId, Some(who.id));
      if AllJoined(vs) then Ok(vs) else Err(ServerError)
  }

  /** `GET /orders/all`: every order, newest first, with items and products
      (a missing product is passed through as no product). */
  function ListAllOrders(s: Store, who: Principal): (r: Reply<seq<OrderView>>)
    ensures !Authorized(who, ProductManager) ==> r == Err(AccessDenied)
    ensures Authorized(who, ProductManager) ==> r == Ok(Listing(s, s.nextOrderId, None))
    ensures r.Ok? ==> forall i :: 0 <= i < |r.value| ==>
      r.value[i].order.id in s.orders && r.value[i] == ViewOf(s, r.value[i].order.id)
    ensures r.Ok? ==> forall i, j :: 0 <= i < j < |r.value| ==> r.value[i].order.id > r.value[j].order.id
    ensures r.Ok? && Valid(s) ==> forall id :: id in s.orders ==>
      exists i :: 0 <= i < |r.value| && r.value[i].order.id == id
  {
    if !Authorized(who, ProductManager) then Err(AccessDenied)
    else
      var vs := Listing(s, s.nextOrderId, None);
      assert Valid(s) ==> forall id :: id in s.orders ==> exists i :: 0 <= i < |vs| && vs[i].order.id == id by {
        if Valid(s) {
          forall id | id in s.orders
            ensures exists i :: 0 <= i < |vs| && vs[i].order.id == id
          {
            ListingComplete(s, s.nextOrderId, None, id);
          }
        }
      }
      Ok(vs)
  }
}

=== FILE: seqs.dfy ===
/** Sequence helpers shared by the shop model: the behaviour of JavaScript's
    `Array.filter`, `new Set(...)` de-duplication, the stable `Array.sort`
    and `slice(0, n)`, each with the properties the views rely on. */
module Seqs {

  /** The usual optional value. */
  datatype Option<+T> = None | Some(value: T)

  /** `a` can be obtained from `b` by deleting elements (order is kept). */
  predicate IsSubsequence<T(==)>(a: seq<T>, b: seq<T>)
    decreases |b|
  {
    |a| == 0
    || (|b| > 0
        && ((a[0] == b[0] && IsSubsequence(a[1..], b[1..])) || IsSubsequence(a, b[1..])))
  }

  /** Every sequence is a subsequence of itself. */
  lemma {:induction false} SubsequenceRefl<T>(s: seq<T>)
    ensures IsSubsequence(s, s)
    decreases |s|
  {
    if |s| > 0 {
      SubsequenceRefl(s[1..]);
    }
  }

  /** No element occurs twice. */
  predicate NoDuplicates<T(==)>(s: seq<T>) {
    forall i, j :: 0 <= i < j < |s| ==> s[i] != s[j]
  }

  // ---------------------------------------------------------------------------
  // Array.filter
  // ---------------------------------------------------------------------------

  /** `r` holds every element of `s` that passes `keep` as often as `s` does,
      and nothing else. */
  ghost predicate CountsKept<T(!new)>(r: seq<T>, s: seq<T>, keep: T -> bool) {
    forall x :: multiset(r)[x] == if keep(x) then multiset(s)[x] else 0
  }

  /** The elements of `s` that `keep` accepts, in their original order. */
  function Select<T(==,!new)>(s: seq<T>, keep: T -> bool): (r: seq<T>)
    ensures |r| <= |s|
    ensures forall x :: x in r <==> x in s && keep(x)
    ensures |r| == |s| <==> forall i :: 0 <= i < |s| ==> keep(s[i])
    ensures IsSubsequence(r, s)
  {
    if |s| == 0 then []
    else
      var rest := Select(s[1..], keep);
      if keep(s[0]) then
        assert ([s[0]] + rest)[1..] == rest;
        [s[0]] + rest
      else
        assert !keep(s[0]) && s[0] in s;
        rest
  }

  /** Filtering keeps every passing element as often as it occurs, and
      nothing else. */
  lemma {:induction false} SelectCounts<T(!new)>(s: seq<T>, keep: T -> bool)
    ensures CountsKept(Select(s, keep), s, keep)
    decreases |s|
  {
    if |s| > 0 {
      var rest := Select(s[1..], keep);
      SelectCounts(s[1..], keep);
      FilteredCounts(s, rest, keep);
      if keep(s[0]) {
        assert Select(s, keep) == [s[0]] + rest;
      } else {
        assert Select(s, keep) == rest;
      }
    }
  }

  /** The occurrence counts of a filter, one element further: if `kept`
      counts the elements of `s[1..]` that pass, then it counts those of `s`
      once `s[0]` is put in front of it, if it passes. */
  lemma FilteredCounts<T(!new)>(s: seq<T>, kept: seq<T>, keep: T -> bool)
    requires |s| > 0 && CountsKept(kept, s[1..], keep)
    ensures keep(s[0]) ==> CountsKept([s[0]] + kept, s, keep)
    ensures !keep(s[0]) ==> CountsKept(kept, s, keep)
  {
    assert s == [s[0]] + s[1..];
    assert multiset([s[0]] + kept) == multiset{s[0]} + multiset(kept);
    assert multiset(s) == multiset{s[0]} + multiset(s[1..]);
  }

  /** Filtering distributes over concatenation, which is what "keeps the
      relative order" means for a filter. */
  lemma {:induction false} SelectAppend<T(!new)>(a: seq<T>, b: seq<T>, keep: T -> bool)
    ensures Select(a + b, keep) == Select(a, keep) + Select(b, keep)
    decreases |a|
  {
    if |a| == 0 {
      assert a + b == b;
    } else {
      var ab := a + b;
      assert ab[0] == a[0];
      assert ab[1..] == a[1..] + b;
      SelectAppend(a[1..], b, keep);
      var rest := Select(a[1..], keep);
      if keep(a[0]) {
        assert [a[0]] + (rest + Select(b, keep)) == ([a[0]] + rest) + Select(b, keep);
      }
    }
  }

  /** Appending one element lengthens the filtered list by one exactly when
      that element is kept. */
  lemma SelectSnocLength<T(!new)>(s: seq<T>, keep: T -> bool)
    requires |s| > 0
    ensures |Select(s, keep)| == |Select(s[..|s| - 1], keep)| + if keep(s[|s| - 1]) then 1 else 0
  {
    var last := s[|s| - 1];
    assert s == s[..|s| - 1] + [last];
    SelectAppend(s[..|s| - 1], [last], keep);
    assert [last][1..] == [];
  }

  /** One step of the filter: the head, if kept, then the filtered tail. */
  lemma SelectHead<T(!new)>(s: seq<T>, keep: T -> bool)
    requires |s| > 0
    ensures keep(s[0]) ==> Select(s, keep) == [s[0]] + Select(s[1..], keep)
    ensures !keep(s[0]) ==> Select(s, keep) == Select(s[1..], keep)
  {
  }

  /** A filter that rejects nothing is the identity. */
  lemma {:induction false} SelectAll<T(!new)>(s: seq<T>, keep: T -> bool)
    requires forall i :: 0 <= i < |s| ==> keep(s[i])
    ensures Select(s, keep) == s
    decreases |s|
  {
    if |s| > 0 {
      assert forall i :: 0 <= i < |s[1..]| ==> s[1..][i] == s[i + 1];
      SelectAll(s[1..], keep);
    }
  }

  /** A filter that rejects everything yields nothing. */
  lemma SelectNone<T(!new)>(s: seq<T>, keep: T -> bool)
    requires forall i :: 0 <= i < |s| ==> !keep(s[i])
    ensures Select(s, keep) == []
  {
    assert forall x :: x !in Select(s, keep);
  }

  /** A filter yields nothing exactly when it rejects every element. */
  lemma SelectEmpty<T(!new)>(s: seq<T>, keep: T -> bool)
    ensures |Select(s, keep)| == 0 <==> forall i :: 0 <= i < |s| ==> !keep(s[i])
  {
    var r := Select(s, keep);
    if |r| > 0 {
      assert r[0] in r;
    } else {
      forall i | 0 <= i < |s| ensures !keep(s[i]) {
        assert s[i] in s;
      }
    }
  }

  /** A filter and its opposite split a sequence between them. */
  lemma {:induction false} SelectSplit<T(!new)>(s: seq<T>, keep: T -> bool, drop: T -> bool)
    requires forall x :: drop(x) == !keep(x)
    ensures |Select(s, keep)| + |Select(s, drop)| == |s|
    decreases |s|
  {
    if |s| > 0 {
      SelectSplit(s[1..], keep, drop);
    }
  }

  /** Two successive filters are one filter on the conjunction. */
  lemma {:induction false} SelectSelect<T(!new)>(s: seq<T>, f: T -> bool, g: T -> bool, both: T -> bool)
    requires forall x :: both(x) == (f(x) && g(x))
    ensures Select(Select(s, f), g) == Select(s, both)
    decreases |s|
  {
    if |s| > 0 {
      SelectSelect(s[1..], f, g, both);
      if f(s[0]) {
        var rest := Select(s[1..], f);
        assert ([s[0]] + rest)[0] == s[0];
        assert ([s[0]] + rest)[1..] == rest;
      }
    }
  }

  // ---------------------------------------------------------------------------
  // [...new Set(s)]
  // ---------------------------------------------------------------------------

  /** Index of the first occurrence of `x` in `s`. */
  function IndexOf<T(==)>(s: seq<T>, x: T): (i: nat)
    requires x in s
    ensures i < |s| && s[i] == x
    ensures forall j :: 0 <= j < i ==> s[j] != x
  {
    if s[0] == x then 0 else 1 + IndexOf(s[1..], x)
  }

  lemma IndexOfAppend<T>(s: seq<T>, e: T)
    ensures forall x :: x in s ==> IndexOf(s + [e], x) == IndexOf(s, x)
    ensures e !in s ==> IndexOf(s + [e], e) == |s|
  {
    forall x | x in s ensures IndexOf(s + [e], x) == IndexOf(s, x) {
      var i := IndexOf(s, x);
      assert (s + [e])[i] == x;
      assert forall j :: 0 <= j < i ==> (s + [e])[j] == s[j];
    }
    if e !in s {
      assert (s + [e])[|s|] == e;
    }
  }

  /** The distinct elements of `s` in the order of their first occurrence:
      inserting the elements one by one into a JavaScript `Set` and
      spreading it back into an array. */
  function Distinct<T(==,!new)>(s: seq<T>): (r: seq<T>)
    ensures forall x :: x in r <==> x in s
    ensures NoDuplicates(r)
    ensures forall i, j :: 0 <= i < j < |r| ==> IndexOf(s, r[i]) < IndexOf(s, r[j])
    decreases |s|
  {
    if |s| == 0 then []
    else
      var init := s[..|s| - 1];
      var last := s[|s| - 1];
      assert s == init + [last];
      var d := Distinct(init);
      IndexOfAppend(init, last);
      if last in d then d
      else
        assert forall x :: x in d ==> IndexOf(init, x) < |init|;
        d + [last]
  }

  // ---------------------------------------------------------------------------
  // Counting
  // ---------------------------------------------------------------------------

  /** Σ over the keys in `keys` (with repetition) of their multiplicity in `m`. */
  function SumCounts<T>(keys: seq<T>, m: multiset<T>): nat
    decreases |keys|
  {
    if |keys| == 0 then 0
    else SumCounts(keys[..|keys| - 1], m) + m[keys[|keys| - 1]]
  }

  lemma {:induction false} SumCountsAdd<T>(keys: seq<T>, m: multiset<T>, e: T)
    ensures SumCounts(keys, m + multiset{e}) == SumCounts(keys, m) + multiset(keys)[e]
    decreases |keys|
  {
    if |keys| > 0 {
      var init := keys[..|keys| - 1];
      SumCountsAdd(init, m, e);
      assert keys == init + [keys[|keys| - 1]];
    }
  }

  lemma {:induction false} DistinctOccursOnce<T>(s: seq<T>, x: T)
    requires NoDuplicates(s) && x in s
    ensures multiset(s)[x] == 1
    decreases |s|
  {
    assert s == [s[0]] + s[1..];
    if s[0] == x {
      assert x !in s[1..];
    } else {
      DistinctOccursOnce(s[1..], x);
    }
  }

  /** Counting every distinct value once, by its multiplicity, adds up to
      the length of the sequence. */
  lemma {:induction false} DistinctCountsSum<T(!new)>(s: seq<T>)
    ensures SumCounts(Distinct(s), multiset(s)) == |s|
    decreases |s|
  {
    if |s| > 0 {
      DistinctCountsSum(s[..|s| - 1]);
      DistinctCountsStep(s);
    }
  }

  /** One more element adds one to the count: either its value was already
      listed and its multiplicity grows, or it is listed now, once. */
  lemma DistinctCountsStep<T(!new)>(s: seq<T>)
    requires |s| > 0
    requires SumCounts(Distinct(s[..|s| - 1]), multiset(s[..|s| - 1])) == |s| - 1
    ensures SumCounts(Distinct(s), multiset(s)) == |s|
  {
    if s[|s| - 1] in Distinct(s[..|s| - 1]) {
      CountsStepListed(s);
    } else {
      CountsStepNew(s);
    }
  }

  /** The step when the last element's value was already listed: its
      multiplicity grows by one and the list stays. */
  lemma CountsStepListed<T(!new)>(s: seq<T>)
    requires |s| > 0 && s[|s| - 1] in Distinct(s[..|s| - 1])
    requires SumCounts(Distinct(s[..|s| - 1]), multiset(s[..|s| - 1])) == |s| - 1
    ensures SumCounts(Distinct(s), multiset(s)) == |s|
  {
    var init, last := s[..|s| - 1], s[|s| - 1];
    var d, m := Distinct(init), multiset(init);
    assert multiset(s) == m + multiset{last} by {
      SplitLast(s);
    }
    assert Distinct(s) == d by {
      DistinctLast(s);
    }
    assert multiset(d)[last] == 1 by {
      DistinctOccursOnce(d, last);
    }
    SumCountsAdd(d, m, last);
  }

  /** The step when the last element's value is new: it is listed at the
      end, once. */
  lemma CountsStepNew<T(!new)>(s: seq<T>)
    requires |s| > 0 && s[|s| - 1] !in Distinct(s[..|s| - 1])
    requires SumCounts(Distinct(s[..|s| - 1]), multiset(s[..|s| - 1])) == |s| - 1
    ensures SumCounts(Distinct(s), multiset(s)) == |s|
  {
    var init, last := s[..|s| - 1], s[|s| - 1];
    var d, m := Distinct(init), multiset(init);
    assert multiset(s) == m + multiset{last} by {
      SplitLast(s);
    }
    assert Distinct(s) == d + [last] by {
      DistinctLast(s);
    }
    assert multiset(d)[last] == 0 && m[last] == 0;
    assert SumCounts(d, m + multiset{last}) == |s| - 1 by {
      SumCountsAdd(d, m, last);
    }
    SumCountsSnoc(d, last, m + multiset{last});
  }

  /** De-duplication lists the last element at the end unless it was
      already listed. */
  lemma DistinctLast<T(!new)>(s: seq<T>)
    requires |s| > 0
    ensures var d := Distinct(s[..|s| - 1]);
      Distinct(s) == if s[|s| - 1] in d then d else d + [s[|s| - 1]]
  {
  }

  /** A non-empty sequence is its front followed by its last element. */
  lemma SplitLast<T>(s: seq<T>)
    requires |s| > 0
    ensures s == s[..|s| - 1] + [s[|s| - 1]]
    ensures multiset(s) == multiset(s[..|s| - 1]) + multiset{s[|s| - 1]}
  {
    assert s == s[..|s| - 1] + [s[|s| - 1]];
  }

  lemma SumCountsSnoc<T>(keys: seq<T>, x: T, m: multiset<T>)
    ensures SumCounts(keys + [x], m) == SumCounts(keys, m) + m[x]
  {
    assert (keys + [x])[..|keys|] == keys;
  }

  // ---------------------------------------------------------------------------
  // Stable sort (JavaScript's Array.prototype.sort with a numeric comparator)
  // ---------------------------------------------------------------------------

  /** Non-decreasing in `key`. */
  predicate SortedBy<T>(s: seq<T>, key: T -> int) {
    forall i, j :: 0 <= i < j < |s| ==> key(s[i]) <= key(s[j])
  }

  /** The elements of `s` whose key is `v`, in order; a sort is stable iff it
      leaves every such run as it was. */
  function WithKey<T>(s: seq<T>, key: T -> int, v: int): seq<T>
    decreases |s|
  {
    if |s| == 0 then []
    else (if key(s[0]) == v then [s[0]] else []) + WithKey(s[1..], key, v)
  }

  lemma WithKeyCons<T>(x: T, s: seq<T>, key: T -> int, v: int)
    ensures WithKey([x] + s, key, v) == (if key(x) == v then [x] else []) + WithKey(s, key, v)
  {
    assert ([x] + s)[0] == x;
    assert ([x] + s)[1..] == s;
  }

  /** Places `x` in front of the first element whose key is not smaller. */
  function Insert<T>(x: T, s: seq<T>, key: T -> int): (r: seq<T>)
    ensures multiset(r) == multiset(s) + multiset{x}
    decreases |s|
  {
    if |s| == 0 then [x]
    else if key(s[0]) < key(x) then
      assert s == [s[0]] + s[1..];
      [s[0]] + Insert(x, s[1..], key)
    else [x] + s
  }

  lemma {:induction false} InsertSorted<T>(x: T, s: seq<T>, key: T -> int)
    requires SortedBy(s, key)
    ensures SortedBy(Insert(x, s, key), key)
    decreases |s|
  {
    if |s| > 0 && key(s[0]) < key(x) {
      InsertSorted(x, s[1..], key);
      InsertSortedStep(x, s, key);
    }
  }

  /** `x` passes a smaller head: the head stays in front of the sorted rest. */
  lemma InsertSortedStep<T>(x: T, s: seq<T>, key: T -> int)
    requires |s| > 0 && key(s[0]) < key(x)
    requires SortedBy(s, key) && SortedBy(Insert(x, s[1..], key), key)
    ensures SortedBy(Insert(x, s, key), key)
  {
    var rest := Insert(x, s[1..], key);
    forall j | 0 <= j < |rest| ensures key(s[0]) <= key(rest[j]) {
      assert rest[j] in multiset(rest);
      assert rest[j] == x || rest[j] in s[1..];
    }
    SortedCons(s[0], rest, key);
    assert Insert(x, s, key) == [s[0]] + rest;
  }

  /** A head no larger than anything in a sorted tail keeps it sorted. */
  lemma SortedCons<T>(head: T, tail: seq<T>, key: T -> int)
    requires SortedBy(tail, key)
    requires forall j :: 0 <= j < |tail| ==> key(head) <= key(tail[j])
    ensures SortedBy([head] + tail, key)
  {
    var r := [head] + tail;
    forall i, j | 0 <= i < j < |r| ensures key(r[i]) <= key(r[j]) {
      assert r[j] == tail[j - 1];
      if i > 0 {
        assert r[i] == tail[i - 1];
      }
    }
  }

  /** Only keys strictly smaller than `key(x)` end up in front of `x`, so no
      element with the same key is overtaken. */
  lemma {:induction false} InsertStable<T>(x: T, s: seq<T>, key: T -> int, v: int)
    ensures WithKey(Insert(x, s, key), key, v) == (if key(x) == v then [x] else []) + WithKey(s, key, v)
    decreases |s|
  {
    if |s| == 0 {
      WithKeyCons(x, [], key, v);
    } else if key(s[0]) < key(x) {
      var tail := s[1..];
      InsertStable(x, tail, key, v);
      InsertStableStep(x, s[0], tail, key, v);
      assert s == [s[0]] + tail;
    } else {
      WithKeyCons(x, s, key, v);
    }
  }

  /** The step of `InsertStable` where `x` moves past a smaller head. */
  lemma InsertStableStep<T>(x: T, head: T, tail: seq<T>, key: T -> int, v: int)
    requires key(head) < key(x)
    requires WithKey(Insert(x, tail, key), key, v) == (if key(x) == v then [x] else []) + WithKey(tail, key, v)
    ensures WithKey([head] + Insert(x, tail, key), key, v)
         == (if key(x) == v then [x] else []) + WithKey([head] + tail, key, v)
  {
    WithKeyCons(head, Insert(x, tail, key), key, v);
    WithKeyCons(head, tail, key, v);
  }

  lemma InsertStableAll<T>(x: T, s: seq<T>, key: T -> int)
    ensures forall v :: WithKey(Insert(x, s, key), key, v) == (if key(x) == v then [x] else []) + WithKey(s, key, v)
  {
    forall v ensures WithKey(Insert(x, s, key), key, v) == (if key(x) == v then [x] else []) + WithKey(s, key, v) {
      InsertStable(x, s, key, v);
    }
  }

  /** Stable insertion sort on an integer key, ascending. */
  function SortOn<T>(s: seq<T>, key: T -> int): (r: seq<T>)
    ensures multiset(r) == multiset(s)
    ensures |r| == |s|
    ensures SortedBy(r, key)
    ensures forall v :: WithKey(r, key, v) == WithKey(s, key, v)
    decreases |s|
  {
    if |s| == 0 then []
    else
      var rest := SortOn(s[1..], key);
      assert s == [s[0]] + s[1..];
      InsertSorted(s[0], rest, key);
      InsertStableAll(s[0], rest, key);
      var r := Insert(s[0], rest, key);
      assert |r| == |multiset(r)|;
      r
  }

  // ---------------------------------------------------------------------------
  // slice(0, n)
  // ---------------------------------------------------------------------------

  /** The first `n` elements, or all of them when there are fewer. */
  function Take<T>(s: seq<T>, n: nat): (r: seq<T>)
    ensures |r| == if |s| < n then |s| else n
    ensures r == s[..|r|]
  {
    if |s| <= n then s else s[..n]
  }
}

=== FILE: shop.dfy ===
/** The shop's records: the `products`, `orders` and `order_items` tables,
    the authenticated principal, and the replies of the order endpoints.
    Prices and totals are integer cents (the columns are DECIMAL(10,2)). */
module Shop {

  /** `orders.status`; a new order is `Pending`. */
  datatype Status = Pending | Dispatched | Cancelled

  /** `users.role`. */
  datatype Role = Customer | ProductManager

  /** The `{id, role}` payload the token middleware attaches to a request. */
  datatype Principal = Principal(id: int, role: Role)

  /** A `products` row, as the backend stores it and the pages receive it.
      Description, weight and image are not modelled. */
  datatype Product = Product(id: int, name: string, category: string, price: int, quantity: int)

  /** An `orders` row. */
  datatype Order = Order(id: int, customerId: int, status: Status, totalPrice: int)

  /** An `order_items` row: `price` is the product's price when the order
      was placed. */
  datatype OrderItem = OrderItem(orderId: int, productId: int, quantity: int, price: int)

  /** One entry of the `items` array a checkout posts to `POST /orders`. */
  datatype Line = Line(productId: int, quantity: int)

  /** The database as the order endpoints see it. `nextOrderId` plays the
      role of the auto-increment counter of `orders.id`; `items` lists the
      `order_items` rows in insertion order. */
  datatype Store = Store(
    products: map<int, Product>,
    orders: map<int, Order>,
    items: seq<OrderItem>,
    nextOrderId: nat)

  /** The error replies of the order endpoints. */
  datatype ShopError =
    | AccessDenied                     // 403 from authorize(role)
    | NotFound                         // 404 "Order not found"
    | AlreadyProcessed                 // 400 "Order already processed"
    | OutOfStock(productId: int)       // 400 "Not enough stock for ..." at placement
    | InsufficientStock(productId: int) // 400 "Insufficient stock for ..." at dispatch
    | ServerError                      // 500: an exception inside the handler

  datatype Reply<+T> = Ok(value: T) | Err(error: ShopError)

  /** What a request leaves behind: the store afterwards and the reply. A
      failed request may still have changed the store (see dispatch). */
  datatype Step<+T> = Step(store: Store, reply: Reply<T>)

  /** `authorize(role)`: the principal's role must equal the route's role. */
  predicate Authorized(who: Principal, role: Role) {
    who.role == role
  }

  /** The shape the auto-increment keys and foreign keys give the tables:
      products and orders are stored under their own id, order ids are
      below the counter, and every item belongs to an existing order. */
  predicate Valid(s: Store) {
    && (forall pid :: pid in s.products ==> s.products[pid].id == pid)
    && (forall oid :: oid in s.orders ==> s.orders[oid].id == oid && 0 <= oid < s.nextOrderId)
    && (forall i :: 0 <= i < |s.items| ==> s.items[i].orderId in s.orders)
  }

  /** No product has negative stock. */
  predicate StockNonNegative(s: Store) {
    forall pid :: pid in s.products ==> s.products[pid].quantity >= 0
  }

  // ---------------------------------------------------------------------------
  // Arithmetic on amounts of money
  // ---------------------------------------------------------------------------

  /** Distributivity, for amounts of money times quantities (the solver
      does not find it unaided inside larger sums). */
  lemma Spread(a: int, b: int, c: int)
    ensures a * (b + c) == a * b + a * c
  {
  }

  /** `Spread` for a factor already known to be a sum: the product of the
      factor itself splits, not just the product of the sum. */
  lemma Scale(a: int, x: int, b: int, c: int)
    requires x == b + c
    ensures a * x == a * b + a * c
  {
  }

  /** Distributivity over a difference. */
  lemma Distribute(a: int, b: int, c: int)
    ensures a * b - a * c == a * (b - c)
  {
  }
}

=== FILE: text.dfy ===
/** The two string operations the catalogue search uses:
    `String.prototype.toLowerCase` and `String.prototype.includes`. */
module Text {

  /** Lower-cases the ASCII letters A-Z and leaves every other character as is. */
  function LowerChar(c: char): (d: char)
    ensures 'A' <= c <= 'Z' ==> 'a' <= d <= 'z' && d as int - c as int == 32
    ensures !('A' <= c <= 'Z') ==> d == c
  {
    if 'A' <= c <= 'Z' then (c as int + 32) as char else c
  }

  /** `s.toLowerCase()`: same length, every character lower-cased. */
  function Lower(s: string): (r: string)
    ensures |r| == |s|
    ensures forall i :: 0 <= i < |s| ==> r[i] == LowerChar(s[i])
    ensures forall i :: 0 <= i < |r| ==> !('A' <= r[i] <= 'Z')
  {
    if |s| == 0 then "" else [LowerChar(s[0])] + Lower(s[1..])
  }

  /** Lower-casing twice is lower-casing once: the search box already
      lower-cases what the user types, and the filter compares it with
      lower-cased names, so no case distinction survives on either side. */
  lemma {:induction false} LowerIdempotent(s: string)
    ensures Lower(Lower(s)) == Lower(s)
  {
    var l := Lower(s);
    assert |Lower(l)| == |l|;
    forall i | 0 <= i < |l| ensures Lower(l)[i] == l[i] {
      assert !('A' <= l[i] <= 'Z');
    }
  }

  /** `needle` occurs in `hay` starting at position `i`. */
  predicate OccursAt(hay: string, needle: string, i: int) {
    0 <= i && i + |needle| <= |hay| && hay[i..i + |needle|] == needle
  }

  /** `hay.includes(needle)`, scanning the start positions left to right. */
  function Contains(hay: string, needle: string): (r: bool)
    ensures r <==> exists i :: OccursAt(hay, needle, i)
    decreases |hay|
  {
    if |needle| <= |hay| && hay[..|needle|] == needle then
      assert OccursAt(hay, needle, 0);
      true
    else if |hay| == 0 then
      assert forall i :: !OccursAt(hay, needle, i);
      false
    else
      var found := Contains(hay[1..], needle);
      assert forall i :: OccursAt(hay[1..], needle, i) ==> OccursAt(hay, needle, i + 1) by {
        forall i | OccursAt(hay[1..], needle, i) ensures OccursAt(hay, needle, i + 1) {
          assert hay[1..][i..i + |needle|] == hay[i + 1..i + 1 + |needle|];
        }
      }
      assert forall i :: OccursAt(hay, needle, i) && i > 0 ==> OccursAt(hay[1..], needle, i - 1) by {
        forall i | OccursAt(hay, needle, i) && i > 0 ensures OccursAt(hay[1..], needle, i - 1) {
          assert hay[1..][i - 1..i - 1 + |needle|] == hay[i..i + |needle|];
        }
      }
      found
  }

  /** The empty string occurs everywhere, so a blank search can never be
      the reason a product is hidden. */
  lemma ContainsEmpty(hay: string)
    ensures Contains(hay, "")
  {
    assert OccursAt(hay, "", 0);
  }
}
